=== FILE: README.md ===
# p3d_ocean simulation wiring, modelled in Dafny

p3d_ocean renders a Tessendorf-style FFT ocean in Panda3D. The numerical
kernels are GLSL compute shaders. The Python side does the deterministic work
that decides what those shaders see:

- **Initial spectrum.** `OceanSpectrumGenerator` creates the initial spectrum
  texture and dispatches the spectrum shader once. It writes either into a new
  texture or in place into one the caller already owns.
- **Phase ping/pong.** `OceanTimeSpectrum` keeps two phase textures. A one-bit
  role flag picks which one the phase pass (bin 0) reads and which one it
  writes. The time-spectrum pass (bin 1) reads the one just written.
- **Inverse FFT schedule.** `OceanIFFT2D` checks that the resolution is a
  power of two. It then lays out `log2(n)` horizontal and `log2(n)` vertical
  butterfly passes. Each pass has stride `2^stage` and its own consecutive
  draw bin. The passes ping-pong between two scratch textures.
- **Displacement and slope maps.** `OceanDisplacement` turns the FFT output
  into a displacement map (unpack pass). One bin later, it turns that map into
  a slope map (slope pass).
- **Application.** `OceanApp` chains these stages at startup and advances the
  phases once per frame. Its live setters push a new choppiness, wind or ocean
  size into every copy of the configuration.
- **Mesh.** `make_ocean_grid` builds the ocean mesh: a grid of vertices and an
  index buffer.

The model represents the pieces as follows:

- **Textures** are identities in an append-only store (`Gpu.Store`). Creating a
  texture appends it, so a new texture is a different object from every
  existing one, and Python's `is` becomes equality of identities.
- **Compute nodes** are records (`Gpu.Stage`) holding a draw bin, a dispatch
  grid and a map from shader input to bound value. FFT passes are `Ifft2d.FftPass`
  records.
- **Operations** are pure functions from the old state to the new one. Every
  stage's promises are gathered in one invariant: `TimeSpectrum.Wired`,
  `Ifft2d.Scheduled`, `Displacement.Wired` and `OceanApp.Wired`.
- **Floats** are modelled as reals, and `random.random()` draws are a
  parameter: a sequence of reals, each in [0, 1).
- **The bitwise check** `n & (n - 1)` is `Bits.BitAnd` on naturals. It is
  proved to accept exactly the powers of two.

Files, one module each: `results.dfy`, `bits.dfy`, `gpu.dfy`,
`spectrum_generator.dfy`, `time_spectrum.dfy`, `ifft2d.dfy`,
`displacement.dfy`, `ocean_app.dfy` and `ocean_geometry.dfy`.

## Model

| member | source | states |
|---|---|---|
| Bits.BitTestIsPowerOfTwo | src/ocean/ocean_ifft2d.py:38-40 | For positive n, `n & (n - 1) == 0` holds exactly when n is a power of two (proof by halving n) |
| Bits.BitAnd | src/ocean/ocean_ifft2d.py:39 | Bitwise AND of naturals, never larger than either operand. `Bits.BitTestIsPowerOfTwo` ties `BitAnd(n, n - 1) == 0` to the halving definition of a power of two |
| Bits.ResolutionAccepted | src/ocean/ocean_ifft2d.py:39 | The guard `OceanIFFT2D` applies to its resolution, with no contract of its own. `Bits.ResolutionAcceptedIffPow2` proves it holds exactly for the powers of two |
| Bits.ResolutionAcceptedIffPow2 | src/ocean/ocean_ifft2d.py:38-40 | The resolution check (`n > 0` and the bit test) accepts n if and only if n is a power of two, so 0, negative numbers and non-powers are rejected |
| Bits.Log2 | src/ocean/ocean_ifft2d.py:48 | On a power of two, the stage count k satisfies 2^k == n, so `int(math.log2(n))` is exact |
| Gpu.CellGroups | src/ocean/ocean_time_spectrum.py:56-60 | The per-cell dispatch grid has equal x and y and z = 1, and covers the resolution with no spare group: g*32 >= res and (g-1)*32 < res, i.e. ceil(res/32) |
| Gpu.Allocate | src/ocean/ocean_ifft2d.py:99-106 | Creating a texture gives an identity that did not exist before, holding the requested texture, and every existing texture is left as it was |
| SpectrumGenerator.CreateTexture | src/ocean/ocean_spectrum_generator.py:37-44 | The new texture is fresh, resolution x resolution, single-channel R32 and cleared to zero |
| SpectrumGenerator.Generate | src/ocean/ocean_spectrum_generator.py:46-65 | With a target, returns that very texture and creates nothing. Without one, returns a fresh R32 texture of config.resolution squared, cleared to zero, adding exactly one texture. Either way the dispatch binds exactly `u_initial_spectrum` (the returned texture), `u_resolution`, `u_ocean_size` and `u_wind` from the config, on a ceil(res/32) x ceil(res/32) x 1 grid |
| SpectrumGenerator.GenerateTwiceSameTarget | src/ocean/ocean_spectrum_generator.py:52-65 | Regenerating twice into the same target returns that target both times, with the store unchanged, whatever the two configs are |
| TimeSpectrum.SeedPhases | src/ocean/ocean_time_spectrum.py:93-95 | Scaling draws in [0, 1) by 2*pi gives one phase per draw, each in [0, 2*pi) |
| TimeSpectrum.MakePhaseTexture | src/ocean/ocean_time_spectrum.py:85-98 | A fresh square R32 texture. When seeded, it holds a RAM image of resolution^2 phases, all in [0, 2*pi); when not seeded, it is only cleared |
| TimeSpectrum.ApplyPhaseBindings | src/ocean/ocean_time_spectrum.py:109-121 | The phase pass reads ping and writes pong when the flag is set, and the reverse otherwise; the two differ whenever the buffers do. The spectrum pass's `u_phases` is that same destination. `u_delta_time` is the given step. The flag and every other input and field are unchanged |
| TimeSpectrum.MakeBuffers | src/ocean/ocean_time_spectrum.py:42-46 | Three fresh, pairwise distinct, resolution-square textures: ping seeded with resolution^2 phases in [0, 2*pi), pong left cleared, and an RGBA time spectrum |
| TimeSpectrum.MakeStage | src/ocean/ocean_time_spectrum.py:56-81 | Both passes start with the flag set. After a zero-time binding, the stage is wired: bins 0 and 1, ceil(res/32) groups, and resolution, ocean size, choppiness, initial spectrum and output spectrum bound from the config |
| TimeSpectrum.New | src/ocean/ocean_time_spectrum.py:34-83 | The constructor creates three fresh distinct square textures, with ping seeded in [0, 2*pi) and pong unseeded. The flag starts true. The initial binding is ping -> pong with delta_time 0.0, and the stage is wired |
| TimeSpectrum.Step | src/ocean/ocean_time_spectrum.py:123-126 | A step binds src/dst chosen by the flag as it was before the step, binds `u_delta_time` to the given step, then negates the flag. Every other input of both passes and every other field stays as it was. Neither node is renamed or moved, and the only new inputs are the three phase uniforms on the phase pass and `u_phases` on the spectrum pass |
| TimeSpectrum.StepPreservesWired | src/ocean/ocean_time_spectrum.py:123-126 | Any number of steps keep the stage wired: distinct src and dst, and the spectrum pass reading the buffer the phase pass writes |
| TimeSpectrum.DebugShowsLastWritten | src/ocean/ocean_time_spectrum.py:128-129 | After any step, the debug accessor returns the buffer that step's phase pass wrote, which is the one the spectrum pass reads |
| TimeSpectrum.DebugCurrentPhaseTexture | src/ocean/ocean_time_spectrum.py:128-129 | The accessor returns one of the two phase buffers: the destination of a binding under the opposite flag, never its source. `TimeSpectrum.DebugShowsLastWritten` ties it to what the last step wrote |
| TimeSpectrum.TwoStepsSwapRoles | src/ocean/ocean_time_spectrum.py:123-126 | Two steps restore the flag, and the second step's source is the first step's destination and vice versa |
| TimeSpectrum.FirstStepRepeatsInitialBinding | src/ocean/ocean_time_spectrum.py:83 | Because the constructor binds without flipping the flag, the first step binds the same ping -> pong pair as the constructor did |
| Ifft2d.ButterflyGroups | src/ocean/ocean_ifft2d.py:44-46 | The work groups cover the n/2 butterfly threads with no spare group: g*256 >= n/2 and (g-1)*256 < n/2 |
| Ifft2d.RunStages | src/ocean/ocean_ifft2d.py:63-78 | One direction's loop yields one pass per remaining stage and advances the bin counter by that many. `Ifft2d.RunStagesShaped` and `Ifft2d.RunStagesLinked` state each pass's attributes and buffers |
| Ifft2d.RunStagesShaped | src/ocean/ocean_ifft2d.py:63-75 | Within one direction's loop, pass k has that direction, `u_total_count` n, stride 2^(stage+k), bin start+k, and the (groups_x, n, 1) dispatch |
| Ifft2d.RunStagesLinked | src/ocean/ocean_ifft2d.py:73-78 | Within one direction's loop, each pass reads the previous pass's output, outputs alternate between the two scratch buffers, and no pass reads its own output. The loop leaves the cursor just after its last pass. It combines `Ifft2d.RunStagesPassesLinked` and `Ifft2d.RunStagesCursorLinked` |
| Ifft2d.RunStagesPassesLinked | src/ocean/ocean_ifft2d.py:73-78 | By induction over the loop: the first pass reads the cursor's input, each later pass reads its predecessor's output, outputs alternate through the `is self.ping` swap, and no pass reads its own output |
| Ifft2d.RunStagesCursorLinked | src/ocean/ocean_ifft2d.py:73-78 | By induction over the loop: afterwards the cursor reads the last pass's output, writes the other scratch buffer, and is one bin per pass later (unchanged when the loop is empty) |
| Ifft2d.JoinChains | src/ocean/ocean_ifft2d.py:80-95 | The vertical loop continues from where the horizontal loop stopped, so input/output chaining and the ping, pong, ping, ... alternation hold across the join |
| Ifft2d.Schedule | src/ocean/ocean_ifft2d.py:59-97 | The schedule keeps the config, input and scratch buffers. It has log2(n) stages (2^stages == n) and 2*stages passes, and its groups_x covers the n/2 threads with no spare group. `Ifft2d.ScheduleShape` and `Ifft2d.ScheduleBuffers` prove the rest of `Scheduled` |
| Ifft2d.ScheduleShape | src/ocean/ocean_ifft2d.py:48-92 | There are exactly 2*log2(n) passes, horizontal ones first. The stride restarts at 1 in each direction. Bins are binStart, binStart+1, ... with no gaps |
| Ifft2d.ScheduleBuffers | src/ocean/ocean_ifft2d.py:59-97 | The first pass reads the input spectrum and writes ping, and every later pass reads its predecessor's output. Pass i writes ping for even i and pong for odd i, and never reads its own output. The displacement is the last pass's output, or the input when there are no passes |
| Ifft2d.New | src/ocean/ocean_ifft2d.py:27-97 | The constructor fails if and only if the resolution fails the `n <= 0 or n & (n - 1) != 0` check, which is exactly when it is not a power of two. On success it creates two fresh RGBA textures (square, distinct from the input), sets the groups_x bounds, and builds a schedule with every property above |
| Ifft2d.DisplacementBuffer | src/ocean/ocean_ifft2d.py:97 | For n >= 2 the displacement is always pong, because the pass count is even. For n = 1 there are no passes and the displacement is the input spectrum itself |
| Ifft2d.StridesInRange | src/ocean/ocean_ifft2d.py:63-64 | Every stride is between 1 and n/2 |
| Ifft2d.BinsStrictlyIncrease | src/ocean/ocean_ifft2d.py:61-92 | Later passes have strictly larger bins, so the passes run in schedule order |
| Displacement.MakeMapTexture | src/ocean/ocean_displacement.py:75-88 | An output map is a fresh, square, cleared RGBA texture with linear min/mag filtering and repeat wrap on both axes |
| Displacement.MakeMaps | src/ocean/ocean_displacement.py:39-40 | The displacement and slope maps are two different new textures, both resolution x resolution, both repeating |
| Displacement.New | src/ocean/ocean_displacement.py:28-73 | Unpack (at binStart) reads the FFT output and writes the displacement map. Slope (at binStart+1) reads that same map and writes the slope map. Resolution and ocean size come from the config, groups are ceil(res/32), and neither output aliases an existing FFT output |
| Displacement.SlopeReadsUnpackOutput | src/ocean/ocean_displacement.py:59-73 | In a wired stage, the slope pass consumes exactly the texture the unpack pass writes, and runs after it |
| OceanApp.New | src/app/ocean_app.py:158-195 | Startup fails exactly when the resolution is not a power of two, and otherwise keeps the given parameters |
| OceanApp.BuildFront | src/app/ocean_app.py:158-178 | The front of the chain: the initial spectrum is a square texture generated from the parameters. The time spectrum reads it, writes a different texture, and is wired with the parameters' resolution, size and choppiness. `OceanApp.NewIsWired` carries this through the rest of startup |
| OceanApp.NewIsWired | src/app/ocean_app.py:158-246 | After startup, each stage reads the previous stage's output (initial spectrum -> time spectrum -> FFT -> maps -> ocean draw), every configuration copy agrees with the parameters, every stage is wired, the draw bin is 1000, and all eight textures are distinct and resolution-square |
| OceanApp.StartupIsWired | src/app/ocean_app.py:53-67 | The startup values (resolution 1024, size 150, wind (60, 30), choppiness 1.5) pass the check, and startup wires the whole chain |
| OceanApp.Tick | src/app/ocean_app.py:262-266 | A frame flips the phase flag and hands the frame time to the phase pass as `u_delta_time`. The phase pass reads the buffer the old flag selects and writes the other one; the spectrum pass then reads what the debug view shows. The phase buffers, spectrum texture and time config are kept. Store, parameters, spectrum dispatch, FFT, maps and draw node are unchanged |
| OceanApp.TickPreservesWired | src/app/ocean_app.py:262-266 | Frames keep the application wired |
| OceanApp.RegenerateInitialSpectrum | src/app/ocean_app.py:423-433 | The spectrum is regenerated from the current resolution, ocean size and wind into the existing initial spectrum texture. The store and everything else are unchanged, so downstream bindings keep the same texture |
| OceanApp.SetChoppiness | src/app/ocean_app.py:350-353 | The app's value, the time-spectrum config and the spectrum pass's `u_choppiness` all become the new value. Nothing else changes: every other app field, the phase flag and buffers, the phase pass, and the spectrum node's name, bin and groups. `u_choppiness` is the only input it can add, and every other spectrum input keeps its value |
| OceanApp.SetChoppinessPreservesWired | src/app/ocean_app.py:350-353 | The app stays wired and reports the new choppiness. Nothing else changes: store, dispatch, FFT, maps, draw, the phase flag, buffers and pass, the spectrum node's name, bin and groups, and every other spectrum input. No input other than `u_choppiness` is added |
| OceanApp.SetWind | src/app/ocean_app.py:355-358 | Both wind components are stored, and the spectrum is redispatched with the new wind |
| OceanApp.SetWindPreservesWired | src/app/ocean_app.py:355-358 | The app stays wired and reports the new wind. The initial spectrum texture, the store, the time stage, the FFT and the maps are unchanged |
| OceanApp.SetOceanSize | src/app/ocean_app.py:360-369 | The app's value, both stage configs, and `u_ocean_size` on the phase, spectrum and slope passes all become the new size, and the spectrum is regenerated with it. Nothing else changes: store, texture, FFT, draw node, the role flag and phase buffers, the unpack pass, the names, bins and grids of the three passes, and every other input of those passes. `u_ocean_size` is the only input it can add to them |
| OceanApp.SetOceanSizePreservesWired | src/app/ocean_app.py:360-369 | The app stays wired (every copy of the size agrees), `get_ocean_parameters` reports the new size with everything else as before, and the resolution, texture and FFT are untouched. The time stage differs only in its config and the two passes' `u_ocean_size`, the maps only in their config and the slope pass's `u_ocean_size`, and the draw node is unchanged. The three passes keep their names, bins and grids, and gain no input other than `u_ocean_size` |
| OceanApp.GetOceanParameters | src/app/ocean_app.py:324-330 | Reports every simulation parameter, so the parameters can be read back from the report. The setter lemmas show it reflects each setter's new value and otherwise the old ones |
| OceanApp.StagesShareResolution | src/app/ocean_app.py:172-194 | In a wired app, all stage configs use the app's resolution, and the initial spectrum, the FFT output and the slope map are all resolution-square |
| OceanApp.ComputeChainPrecedesDraw | src/app/ocean_app.py:245-246 | The bins run phase 0 < spectrum 1 < unpack 100 < slope 101 < ocean draw 1000 for every wired app with resolution at most 2^45, including resolution 1, which has no FFT pass. Every FFT pass lies strictly between spectrum and unpack (10 + 2*log2(n) <= 100) |
| OceanGeometry.MakeOceanGrid | src/app/ocean_geometry.py:22-74 | The generator fails exactly when grid_subdiv < 1. Otherwise it builds the full grid (see `IsOceanGrid`): (s+1)^2 vertices, vertex (i, j) at index j*(s+1)+i, 2*s^2 triangles, quad (i, j) at slots 2*(j*s+i) and the next, and every index addressing an existing vertex |
| OceanGeometry.EmitVertexRow | src/app/ocean_geometry.py:50-57 | The inner vertex loop writes row j as vertices (i, j) for i = 0..s, in order |
| OceanGeometry.EmitVertices | src/app/ocean_geometry.py:48-57 | The outer vertex loop writes rows 0..s one after another |
| OceanGeometry.EmitTriangleRow | src/app/ocean_geometry.py:60-73 | The inner triangle loop writes (i0, i1, i2) and (i1, i3, i2) for each quad of row j, in order |
| OceanGeometry.EmitTriangles | src/app/ocean_geometry.py:59-73 | The outer triangle loop writes quad rows 0..s-1 one after another |
| OceanGeometry.VertexRowsFacts | src/app/ocean_geometry.py:34-57 | Rows written in order place vertex (i, r) at r*(s+1)+i, for m*(s+1) vertices in total |
| OceanGeometry.TriRowsFacts | src/app/ocean_geometry.py:59-73 | Quad rows written in order place quad (i, r)'s triangles at 2*(r*s+i) and the next slot, for 2*m*s triangles in total |
| OceanGeometry.TriRowsInRange | src/app/ocean_geometry.py:60-73 | Every index written by the first m quad rows addresses one of the first (m+1)*(s+1) vertices |
| OceanGeometry.RowsFormGrid | src/app/ocean_geometry.py:34-74 | The row-by-row vertex and index buffers satisfy every property of `IsOceanGrid` |
| OceanGeometry.UVSpan | src/app/ocean_geometry.py:49-52 | u and v are 0 at the first row or column and uv_tiles at the last, and lie in [0, uv_tiles] when uv_tiles >= 0 |
| OceanGeometry.PositionSpan | src/app/ocean_geometry.py:45-56 | Positions lie on z = 0 with normal +z. x and y run from -grid_size/2 at index 0 to grid_size/2 at index s, and stay in between when grid_size >= 0 |
| OceanGeometry.QuadWinding | src/app/ocean_geometry.py:64-73 | The two triangles of a quad share the diagonal i1-i2 and wind the same way: both have twice-signed-area step^2, counter-clockwise seen from +z whenever grid_size != 0 |

## Left out

- GLSL kernels: the spectrum formula, dispersion, butterflies, unpacking and slope are not part of this model. Only what each pass is bound to, its bin and its dispatch grid are modelled.
- Panda3D itself: shader loading, scene-graph nodes, `dispatch_compute` and texture uploads. They appear only as bindings, records and texture identities.
- TimeSpectrum.SeedPhases: phases are real products `draw * 2*pi`, not float32 values. In float32, a draw just below 1.0 times 2*pi can round up to 2*pi, so the upper bound holds of the real-number model, not necessarily of the stored floats.
- `random.random()`: its distribution is not modelled. The draws are a parameter, each in [0, 1).
- Clock: the frame time `dt` that drives `_ocean_step_task` is a parameter of `OceanApp.Tick`. The camera-position input that `_ocean_step_task` also sets belongs to rendering and is left out.
- Float conversions: `int(...)` and `float(...)` are identities in the model. `set_ocean_size` receives an int (the UI passes `max(1, int(...))`), and the other values are reals throughout.
- Ifft2d.New: requires the input spectrum to be an existing texture. That is always true of a Python `Texture` object, and the model needs it to show the scratch buffers are distinct from the input.
- Rendering and lighting setters, the refraction buffer, the detail normal texture, the ocean shader's other inputs, and the wireframe toggle: these are visual parameters and GPU buffer setup, with no part in the simulation chain.
- `get_ocean_parameters`: only its simulation fields are modelled (`OceanApp.GetOceanParameters`). The rendering fields belong to the left-out setters.
- Mesh output: the mesh is returned as vertex and index sequences, not a `GeomNode`. The application's use of it (reparenting, two-sided rendering) is not modelled.
- Debug cards, the ImGui panel, the orbit camera, logging, asset paths and the entry point: UI, input handling and process setup.
- OceanApp.ComputeChainPrecedesDraw: proved only for resolutions up to 2^45. Beyond that, the FFT bins would reach the unpack bin 100, which neither `OceanIFFT2D` nor `OceanApp` guards against. Such resolutions are far outside anything the GPU can allocate.

=== FILE: bits.dfy ===
/** Integer facts behind the power-of-two resolution check of the inverse FFT:
    the bitwise test `n & (n - 1) == 0`, powers of two and their base-2 logarithm. */
module Bits {

  /** 2^k. */
  function Pow2(k: nat): (r: nat)
    ensures r >= 1
  {
    if k == 0 then 1 else 2 * Pow2(k - 1)
  }

  /** n is a power of two (1, 2, 4, ...), defined by repeated halving. */
  predicate IsPow2(n: int)
    decreases if n < 0 then 0 else n
  {
    n == 1 || (n > 1 && n % 2 == 0 && IsPow2(n / 2))
  }

  /** Bitwise AND of two non-negative integers, bit by bit from the lowest. */
  function BitAnd(a: nat, b: nat): (r: nat)
    ensures r <= a && r <= b
  {
    if a == 0 || b == 0 then 0
    else 2 * BitAnd(a / 2, b / 2) + (if a % 2 == 1 && b % 2 == 1 then 1 else 0)
  }

  /** The test the inverse FFT applies to its resolution before anything else. */
  predicate ResolutionAccepted(n: int)
  {
    n > 0 && BitAnd(n, n - 1) == 0
  }

  /** x & x == x. */
  lemma {:induction false} BitAndSelf(x: nat)
    ensures BitAnd(x, x) == x
  {
    if x != 0 {
      BitAndSelf(x / 2);
    }
  }

  /** For positive n, clearing the lowest set bit leaves nothing exactly when
      n is a power of two: the bitwise check accepts precisely the powers of two. */
  lemma {:induction false} BitTestIsPowerOfTwo(n: int)
    requires n > 0
    ensures BitAnd(n, n - 1) == 0 <==> IsPow2(n)
  {
    if n == 1 {
    } else if n % 2 == 0 {
      var m := n / 2;
      assert n - 1 == 2 * (m - 1) + 1;
      assert BitAnd(n, n - 1) == 2 * BitAnd(m, m - 1);
      BitTestIsPowerOfTwo(m);
    } else {
      var m := n / 2;
      assert m >= 1;
      assert (n - 1) / 2 == m && (n - 1) % 2 == 0;
      BitAndSelf(m);
      assert BitAnd(n, n - 1) == 2 * m;
    }
  }

  /** The resolution check accepts n exactly when n is a power of two. */
  lemma ResolutionAcceptedIffPow2(n: int)
    ensures ResolutionAccepted(n) <==> IsPow2(n)
  {
    if n > 0 {
      BitTestIsPowerOfTwo(n);
    }
  }

  /** Base-2 logarithm of a power of two; `OceanIFFT2D` computes it as
      `int(math.log2(n))`, which is exact on powers of two. */
  function Log2(n: int): (k: nat)
    requires IsPow2(n)
    ensures Pow2(k) == n
    decreases if n < 0 then 0 else n
  {
    if n == 1 then 0 else 1 + Log2(n / 2)
  }

  /** 2^k is a power of two. */
  lemma {:induction false} Pow2IsPow2(k: nat)
    ensures IsPow2(Pow2(k))
  {
    if k > 0 {
      Pow2IsPow2(k - 1);
      assert Pow2(k) / 2 == Pow2(k - 1);
    }
  }

  /** Powers of two grow with the exponent. */
  lemma {:induction false} Pow2Monotone(a: nat, b: nat)
    requires a <= b
    ensures Pow2(a) <= Pow2(b)
  {
    if a < b {
      Pow2Monotone(a, b - 1);
    }
  }

  /** Powers of two grow strictly with the exponent. */
  lemma {:induction false} Pow2Strict(a: nat, b: nat)
    requires a < b
    ensures Pow2(a) < Pow2(b)
  {
    Pow2Monotone(a, b - 1);
  }
}

=== FILE: displacement.dfy ===
/** Displacement and slope maps: an unpack pass that turns the inverse FFT's
    output into the displacement map, followed one bin later by a slope pass
    that reads that map and writes the slope (normal) map. */
module Displacement {
  import opened Gpu

  /** Draw bin of the unpack pass when the caller does not choose one. */
  const DefaultBinStart: int := 100

  datatype MapsConfig = MapsConfig(resolution: int, oceanSize: int)

  datatype OceanMaps = OceanMaps(
    config: MapsConfig,
    ifftOutput: TexId,
    displacementMap: TexId,
    slopeMap: TexId,
    unpackNode: Stage,
    slopeNode: Stage)

  datatype Built = Built(store: Store, maps: OceanMaps)

  /** An RGBA float map sampled bilinearly and repeating on both axes, so that
      it tiles toroidally. */
  function MakeMapTexture(s: Store, name: string, resolution: int): (r: Allocated)
    ensures r.store.Extends(s) && !s.Has(r.id) && r.store.IsSquare(r.id, resolution)
    ensures r.store.Get(r.id).wrapU == Repeat && r.store.Get(r.id).wrapV == Repeat
    ensures r.store.Get(r.id).minFilter == Linear && r.store.Get(r.id).magFilter == Linear
    ensures r.store.Get(r.id).format == Rgba32 && r.store.Get(r.id).content == Cleared
  {
    Allocate(s, Blank(name, resolution, Rgba32).(minFilter := Linear, magFilter := Linear,
                                                 wrapU := Repeat, wrapV := Repeat))
  }

  /** The stage's wiring: unpack reads the FFT output and writes the
      displacement map; slope reads that same displacement map and writes the
      slope map, one bin later; both are configured from `config`. */
  predicate Wired(m: OceanMaps)
  {
    && m.displacementMap != m.slopeMap
    && m.unpackNode.Bound(UIfft, TexV(m.ifftOutput))
    && m.unpackNode.Bound(UDisplacement, TexV(m.displacementMap))
    && m.slopeNode.Bound(UDisplacement, TexV(m.displacementMap))
    && m.slopeNode.Bound(USlopeMap, TexV(m.slopeMap))
    && m.slopeNode.bin == m.unpackNode.bin + 1
    && m.unpackNode.Bound(UResolution, IntV(m.config.resolution))
    && m.slopeNode.Bound(UResolution, IntV(m.config.resolution))
    && m.slopeNode.Bound(UOceanSize, IntV(m.config.oceanSize))
    && m.unpackNode.groups == CellGroups(m.config.resolution)
    && m.slopeNode.groups == CellGroups(m.config.resolution)
  }

  datatype Maps = Maps(store: Store, displacement: TexId, slope: TexId)

  /** The two output maps, both new. */
  function MakeMaps(s: Store, resolution: int): (r: Maps)
    ensures r.store.Extends(s) && !s.Has(r.displacement) && !s.Has(r.slope)
    ensures r.displacement != r.slope
    ensures r.store.IsSquare(r.displacement, resolution) && r.store.IsSquare(r.slope, resolution)
    ensures r.store.Get(r.displacement).wrapU == Repeat && r.store.Get(r.displacement).wrapV == Repeat
    ensures r.store.Get(r.slope).wrapU == Repeat && r.store.Get(r.slope).wrapV == Repeat
  {
    var d := MakeMapTexture(s, "ocean_displacement", resolution);
    var sl := MakeMapTexture(d.store, "ocean_slope", resolution);
    ExtendsTrans(sl.store, d.store, s);
    ExtendsKeeps(sl.store, d.store, d.id);
    Maps(sl.store, d.id, sl.id)
  }

  /** Builds the stage with the unpack pass in `binStart` and the slope pass in
      `binStart + 1`. */
  function New(s: Store, ifftOutput: TexId, config: MapsConfig, binStart: int): (r: Built)
    ensures r.store.Extends(s)
    ensures var m := r.maps;
      && m.config == config && m.ifftOutput == ifftOutput
      && !s.Has(m.displacementMap) && !s.Has(m.slopeMap)
      && r.store.IsSquare(m.displacementMap, config.resolution)
      && r.store.IsSquare(m.slopeMap, config.resolution)
      && r.store.Get(m.displacementMap).wrapU == Repeat && r.store.Get(m.displacementMap).wrapV == Repeat
      && r.store.Get(m.slopeMap).wrapU == Repeat && r.store.Get(m.slopeMap).wrapV == Repeat
    ensures r.maps.unpackNode.bin == binStart
    ensures s.Has(ifftOutput) ==> r.maps.ifftOutput != r.maps.displacementMap && r.maps.ifftOutput != r.maps.slopeMap
    ensures Wired(r.maps)
  {
    var mm := MakeMaps(s, config.resolution);
    var groups := CellGroups(config.resolution);
    var unpack := Stage("ocean_unpack_displacement", binStart, groups, map[
      UResolution := IntV(config.resolution),
      UIfft := TexV(ifftOutput),
      UDisplacement := TexV(mm.displacement)]);
    var slope := Stage("ocean_slope_map", binStart + 1, groups, map[
      UResolution := IntV(config.resolution),
      UOceanSize := IntV(config.oceanSize),
      UDisplacement := TexV(mm.displacement),
      USlopeMap := TexV(mm.slope)]);
    Built(mm.store, OceanMaps(config, ifftOutput, mm.displacement, mm.slope, unpack, slope))
  }

  /** The slope pass consumes exactly what the unpack pass produces, and runs
      after it. */
  lemma SlopeReadsUnpackOutput(m: OceanMaps)
    requires Wired(m)
    ensures m.slopeNode.inputs[UDisplacement] == m.unpackNode.inputs[UDisplacement]
    ensures m.unpackNode.bin < m.slopeNode.bin
  {
  }
}

=== FILE: gpu.dfy ===
/** Abstract GPU resources shared by every stage of the simulation: textures as
    identities in an append-only store, shader uniforms as named values, and
    compute nodes as records of draw bin, dispatch grid and bound inputs. */
module Gpu {

  /** A texture's identity: its position in the store. Two handles name the same
      texture object exactly when they are equal. */
  type TexId = nat

  datatype Format = R32 | Rgba32
  datatype Filter = Nearest | Linear
  datatype WrapMode = DefaultWrap | Repeat

  /** What a texture holds before any shader writes it: the clear colour
      (all zero) or an uploaded RAM image. */
  datatype Content = Cleared | RamImage(values: seq<real>)

  datatype Texture = Texture(
    name: string,
    width: int,
    height: int,
    format: Format,
    minFilter: Filter,
    magFilter: Filter,
    wrapU: WrapMode,
    wrapV: WrapMode,
    content: Content)

  /** A square `size` x `size` texture cleared to zero, with default sampling. */
  function Blank(name: string, size: int, format: Format): Texture
  {
    Texture(name, size, size, format, Nearest, Nearest, DefaultWrap, DefaultWrap, Cleared)
  }

  /** Every texture created so far, indexed by identity. */
  datatype Store = Store(textures: seq<Texture>) {

    predicate Has(t: TexId)
    {
      t < |textures|
    }

    function Get(t: TexId): Texture
      requires Has(t)
    {
      textures[t]
    }

    /** This store was obtained from `older` by creating textures only. */
    predicate Extends(older: Store)
    {
      |older.textures| <= |textures| && textures[..|older.textures|] == older.textures
    }

    /** `t` exists and is a `size` x `size` texture. */
    predicate IsSquare(t: TexId, size: int)
    {
      Has(t) && textures[t].width == size && textures[t].height == size
    }
  }

  datatype Allocated = Allocated(store: Store, id: TexId)

  /** Creates a new texture object. */
  function Allocate(s: Store, t: Texture): (r: Allocated)
    ensures !s.Has(r.id) && r.store.Has(r.id) && r.store.Get(r.id) == t
    ensures r.store.Extends(s) && |r.store.textures| == |s.textures| + 1
    ensures forall u :: s.Has(u) ==> r.store.Has(u) && r.store.Get(u) == s.Get(u)
  {
    Allocated(Store(s.textures + [t]), |s.textures|)
  }

  /** Extension keeps every existing texture as it was. */
  lemma ExtendsKeeps(newer: Store, older: Store, t: TexId)
    requires newer.Extends(older) && older.Has(t)
    ensures newer.Has(t) && newer.Get(t) == older.Get(t)
  {
    assert newer.textures[..|older.textures|][t] == newer.textures[t];
  }

  /** Extension is transitive. */
  lemma ExtendsTrans(c: Store, b: Store, a: Store)
    requires c.Extends(b) && b.Extends(a)
    ensures c.Extends(a)
  {
    assert c.textures[..|a.textures|] == c.textures[..|b.textures|][..|a.textures|];
  }

  /** Names of the shader inputs the simulation binds. */
  datatype Uniform =
    | UResolution | UOceanSize | UChoppiness | UWind
    | UInitialSpectrum | USpectrum | UPhases | UDeltaPhases | UDeltaTime
    | UIfft | UDisplacement | USlopeMap

  /** A value bound to a shader input. */
  datatype Value = IntV(i: int) | RealV(r: real) | Vec2V(x: real, y: real) | TexV(t: TexId)

  /** Work groups of a compute dispatch along x, y and z. */
  datatype Groups = Groups(x: int, y: int, z: int)

  /** The local size of the per-cell compute shaders along x and y. */
  const CellTile: int := 32

  /** The dispatch grid of a per-cell pass over a `resolution` x `resolution`
      texture: `(resolution + 31) // 32` groups on both axes, one on z. Python's
      floor division by a positive constant agrees with Dafny's `/`. */
  function CellGroups(resolution: int): (g: Groups)
    ensures g.x == g.y && g.z == 1
    ensures g.x * CellTile >= resolution && (g.x - 1) * CellTile < resolution
  {
    var c := (resolution + CellTile - 1) / CellTile;
    Groups(c, c, 1)
  }

  /** A compute node attached under the scene: its fixed draw bin, its dispatch
      grid and the shader inputs set on it. */
  datatype Stage = Stage(name: string, bin: int, groups: Groups, inputs: map<Uniform, Value>) {

    /** `set_shader_input(u, v)` on this node. */
    function Bind(u: Uniform, v: Value): Stage
    {
      this.(inputs := inputs[u := v])
    }

    /** Input `u` is set to `v`. */
    predicate Bound(u: Uniform, v: Value)
    {
      u in inputs && inputs[u] == v
    }
  }
}

=== FILE: ifft2d.dfy ===
/** The 2D inverse FFT's pass schedule: log2(n) horizontal butterfly passes
    followed by log2(n) vertical ones, each with stride 2^stage, in consecutive
    draw bins, ping-ponging between two scratch textures so that every pass
    reads its predecessor's output. */
module Ifft2d {
  import opened Results
  import opened Bits
  import opened Gpu

  /** Local size x of the butterfly compute shaders. */
  const WorkgroupSizeX: int := 256

  /** Draw bin of the first pass when the caller does not choose one. */
  const DefaultBinStart: int := 10

  datatype FftConfig = FftConfig(resolution: int)

  datatype Direction = Horizontal | Vertical

  /** One butterfly pass: `u_total_count`, `u_subseq_count` (the stride),
      `u_input`, `u_output`, its draw bin and its dispatch grid. */
  datatype FftPass = FftPass(
    dir: Direction,
    totalCount: int,
    subseqCount: nat,
    input: TexId,
    output: TexId,
    bin: int,
    groups: Groups)

  /** Loop state between passes: next input, next output, next bin. */
  datatype Cursor = Cursor(input: TexId, output: TexId, order: int)

  datatype Chain = Chain(passes: seq<FftPass>, cursor: Cursor)

  datatype OceanIfft = OceanIfft(
    config: FftConfig,
    inputSpectrum: TexId,
    ping: TexId,
    pong: TexId,
    groupsX: int,
    stages: nat,
    passes: seq<FftPass>,
    displacement: TexId)

  datatype Built = Built(store: Store, ifft: OceanIfft)

  /** The scratch buffer that is not `t` (`pong if t is ping else ping`). */
  function Other(ping: TexId, pong: TexId, t: TexId): TexId
  {
    if t == ping then pong else ping
  }

  /** Work groups along x covering the n/2 butterfly threads of one row or column. */
  function ButterflyGroups(n: int): (g: int)
    requires n > 0
    ensures g * WorkgroupSizeX >= n / 2 && (g - 1) * WorkgroupSizeX < n / 2
  {
    (n / 2 + WorkgroupSizeX - 1) / WorkgroupSizeX
  }

  /** The passes of one direction, from `stage` up to `stages`, starting at
      cursor `c`; after each pass its output becomes the next input and the
      other scratch buffer the next output. */
  function RunStages(dir: Direction, stages: nat, stage: nat, n: int, groupsX: int,
                     ping: TexId, pong: TexId, c: Cursor): (r: Chain)
    requires stage <= stages
    ensures |r.passes| == stages - stage
    ensures r.cursor.order == c.order + (stages - stage)
    decreases stages - stage
  {
    if stage == stages then Chain([], c)
    else
      var pass := FftPass(dir, n, Pow2(stage), c.input, c.output, c.order, Groups(groupsX, n, 1));
      var rest := RunStages(dir, stages, stage + 1, n, groupsX, ping, pong,
                            Cursor(c.output, Other(ping, pong, c.output), c.order + 1));
      Chain([pass] + rest.passes, rest.cursor)
  }

  /** Per-pass attributes of one direction's loop: direction, total count,
      stride 2^stage, consecutive bins from the cursor's, the dispatch grid. */
  predicate Shaped(r: Chain, dir: Direction, stage: nat, n: int, groupsX: int, order: int)
  {
    forall k :: 0 <= k < |r.passes| ==>
      && r.passes[k].dir == dir
      && r.passes[k].totalCount == n
      && r.passes[k].subseqCount == Pow2(stage + k)
      && r.passes[k].bin == order + k
      && r.passes[k].groups == Groups(groupsX, n, 1)
  }

  /** The buffers of one direction's loop from cursor `c` on: the passes are
      linked and the cursor is left after the last of them. */
  predicate Linked(r: Chain, ping: TexId, pong: TexId, c: Cursor)
  {
    PassesLinked(r, ping, pong, c) && CursorLinked(r, ping, pong, c)
  }

  /** Each input is the previous output (the cursor's input for the first
      pass), outputs alternate between the two scratch buffers, and no pass
      reads its own output. */
  predicate PassesLinked(r: Chain, ping: TexId, pong: TexId, c: Cursor)
  {
    && (forall k :: 0 <= k < |r.passes| ==>
          && r.passes[k].output == (if k % 2 == 0 then c.output else Other(ping, pong, c.output))
          && r.passes[k].input != r.passes[k].output)
    && (|r.passes| > 0 ==> r.passes[0].input == c.input)
    && (forall k :: 0 < k < |r.passes| ==> r.passes[k].input == r.passes[k - 1].output)
  }

  /** The cursor after the loop reads the last output and writes the other
      scratch buffer, one bin per pass later (unchanged when there are none). */
  predicate CursorLinked(r: Chain, ping: TexId, pong: TexId, c: Cursor)
  {
    && r.cursor.order == c.order + |r.passes|
    && (|r.passes| == 0 ==> r.cursor == c)
    && (|r.passes| > 0 ==> r.cursor.input == r.passes[|r.passes| - 1].output
                           && r.cursor.output == Other(ping, pong, r.cursor.input))
    && (r.cursor.output == ping || r.cursor.output == pong) && r.cursor.input != r.cursor.output
  }

  /** Each pass of one direction gets stride 2^stage and the next bin. */
  lemma {:induction false} RunStagesShaped(dir: Direction, stages: nat, stage: nat, n: int, groupsX: int,
                                           ping: TexId, pong: TexId, c: Cursor)
    requires stage <= stages
    ensures Shaped(RunStages(dir, stages, stage, n, groupsX, ping, pong, c), dir, stage, n, groupsX, c.order)
    decreases stages - stage
  {
    if stage < stages {
      var r := RunStages(dir, stages, stage, n, groupsX, ping, pong, c);
      var c' := Cursor(c.output, Other(ping, pong, c.output), c.order + 1);
      var rest := RunStages(dir, stages, stage + 1, n, groupsX, ping, pong, c');
      RunStagesShaped(dir, stages, stage + 1, n, groupsX, ping, pong, c');
      assert r.passes == [r.passes[0]] + rest.passes;
      forall k | 0 < k < |r.passes|
        ensures r.passes[k] == rest.passes[k - 1]
      {
      }
    }
  }

  /** The loop over one direction keeps the ping/pong discipline whenever it
      starts with an output that is a scratch buffer distinct from the input. */
  lemma RunStagesLinked(dir: Direction, stages: nat, stage: nat, n: int, groupsX: int,
                        ping: TexId, pong: TexId, c: Cursor)
    requires stage <= stages
    requires ping != pong && (c.output == ping || c.output == pong) && c.input != c.output
    ensures Linked(RunStages(dir, stages, stage, n, groupsX, ping, pong, c), ping, pong, c)
  {
    RunStagesPassesLinked(dir, stages, stage, n, groupsX, ping, pong, c);
    RunStagesCursorLinked(dir, stages, stage, n, groupsX, ping, pong, c);
  }

  /** Each pass of the loop reads its predecessor's output and writes the
      other scratch buffer. */
  lemma {:induction false} RunStagesPassesLinked(dir: Direction, stages: nat, stage: nat, n: int, groupsX: int,
                                                 ping: TexId, pong: TexId, c: Cursor)
    requires stage <= stages
    requires ping != pong && (c.output == ping || c.output == pong) && c.input != c.output
    ensures PassesLinked(RunStages(dir, stages, stage, n, groupsX, ping, pong, c), ping, pong, c)
    decreases stages - stage
  {
    if stage < stages {
      var r := RunStages(dir, stages, stage, n, groupsX, ping, pong, c);
      var c' := Cursor(c.output, Other(ping, pong, c.output), c.order + 1);
      var rest := RunStages(dir, stages, stage + 1, n, groupsX, ping, pong, c');
      RunStagesPassesLinked(dir, stages, stage + 1, n, groupsX, ping, pong, c');
      assert r.passes == [r.passes[0]] + rest.passes;
      assert Other(ping, pong, c'.output) == c.output;
      forall k | 0 < k < |r.passes|
        ensures r.passes[k] == rest.passes[k - 1]
        ensures r.passes[k].output == (if k % 2 == 0 then c.output else Other(ping, pong, c.output))
      {
        assert (k - 1) % 2 == 0 <==> k % 2 == 1;
      }
    }
  }

  /** The loop leaves the cursor reading its last output and writing the
      other scratch buffer. */
  lemma {:induction false} RunStagesCursorLinked(dir: Direction, stages: nat, stage: nat, n: int, groupsX: int,
                                                 ping: TexId, pong: TexId, c: Cursor)
    requires stage <= stages
    requires ping != pong && (c.output == ping || c.output == pong) && c.input != c.output
    ensures CursorLinked(RunStages(dir, stages, stage, n, groupsX, ping, pong, c), ping, pong, c)
    decreases stages - stage
  {
    if stage < stages {
      var r := RunStages(dir, stages, stage, n, groupsX, ping, pong, c);
      var c' := Cursor(c.output, Other(ping, pong, c.output), c.order + 1);
      var rest := RunStages(dir, stages, stage + 1, n, groupsX, ping, pong, c');
      RunStagesCursorLinked(dir, stages, stage + 1, n, groupsX, ping, pong, c');
      assert r.passes == [r.passes[0]] + rest.passes;
      assert r.cursor == rest.cursor;
      if |rest.passes| > 0 {
        assert r.passes[|r.passes| - 1] == rest.passes[|rest.passes| - 1];
      }
    }
  }

  /** The schedule's promises: 2*log2(n) passes, horizontal then vertical,
      stride 2^stage within each direction, consecutive bins from `binStart`,
      and the buffer discipline of `ScheduledBuffers`. */
  predicate Scheduled(f: OceanIfft, binStart: int)
  {
    var n := f.config.resolution;
    && Pow2(f.stages) == n
    && |f.passes| == 2 * f.stages
    && (forall i :: 0 <= i < |f.passes| ==>
          && f.passes[i].dir == (if i < f.stages then Horizontal else Vertical)
          && f.passes[i].subseqCount == Pow2(if i < f.stages then i else i - f.stages)
          && f.passes[i].totalCount == n
          && f.passes[i].groups == Groups(f.groupsX, n, 1)
          && f.passes[i].bin == binStart + i)
    && ScheduledBuffers(f)
  }

  /** The buffer discipline: the first pass reads the input spectrum and every
      later pass its predecessor's output, outputs alternate ping, pong, ...,
      no pass reads its own output, and the displacement is the last output
      (the input itself when there are no passes). */
  predicate ScheduledBuffers(f: OceanIfft)
  {
    && f.ping != f.pong && f.inputSpectrum != f.ping && f.inputSpectrum != f.pong
    && (forall i :: 0 <= i < |f.passes| ==>
          && f.passes[i].output == (if i % 2 == 0 then f.ping else f.pong)
          && f.passes[i].input != f.passes[i].output)
    && (|f.passes| > 0 ==> f.passes[0].input == f.inputSpectrum)
    && (forall i :: 0 < i < |f.passes| ==> f.passes[i].input == f.passes[i - 1].output)
    && f.displacement == (if |f.passes| == 0 then f.inputSpectrum else f.passes[|f.passes| - 1].output)
  }

  /** Joins the horizontal and vertical chains: the vertical chain starts from
      the cursor the horizontal one ends at. */
  lemma JoinChains(h: Chain, v: Chain, stages: nat, ping: TexId, pong: TexId, c: Cursor)
    requires ping != pong && c.output == ping && c.input != ping && c.input != pong
    requires |h.passes| == stages && |v.passes| == stages
    requires forall k :: 0 < k < |h.passes| ==> h.passes[k].input == h.passes[k - 1].output
    requires forall k :: 0 < k < |v.passes| ==> v.passes[k].input == v.passes[k - 1].output
    requires |h.passes| > 0 ==> h.passes[0].input == c.input
    requires |v.passes| > 0 ==> v.passes[0].input == h.cursor.input
    requires |h.passes| == 0 ==> h.cursor == c
    requires |h.passes| > 0 ==> h.cursor.input == h.passes[|h.passes| - 1].output
    requires |h.passes| > 0 ==> h.cursor.output == Other(ping, pong, h.cursor.input)
    requires forall k :: 0 <= k < |h.passes| ==> h.passes[k].output == (if k % 2 == 0 then ping else pong)
    requires forall k :: 0 <= k < |v.passes| ==>
      v.passes[k].output == (if k % 2 == 0 then h.cursor.output else Other(ping, pong, h.cursor.output))
    ensures var all := h.passes + v.passes;
      && (forall i :: 0 <= i < |all| ==> all[i].output == (if i % 2 == 0 then ping else pong))
      && (|all| > 0 ==> all[0].input == c.input)
      && (forall i :: 0 < i < |all| ==> all[i].input == all[i - 1].output)
  {
    var all := h.passes + v.passes;
    if stages > 0 {
      var next := if (stages - 1) % 2 == 0 then pong else ping;
      assert h.cursor.input == h.passes[stages - 1].output;
      assert h.cursor.output == next;
      JoinAlternates(h.passes, v.passes, ping, pong, next);
      assert all[stages] == v.passes[0];
      assert all[stages - 1] == h.passes[stages - 1];
    }
  }

  /** Outputs alternating from ping, followed by outputs alternating from the
      buffer the first sequence would write next, alternate from ping throughout. */
  lemma JoinAlternates(hs: seq<FftPass>, vs: seq<FftPass>, ping: TexId, pong: TexId, next: TexId)
    requires ping != pong && |hs| > 0
    requires next == (if |hs| % 2 == 0 then ping else pong)
    requires forall k :: 0 <= k < |hs| ==> hs[k].output == (if k % 2 == 0 then ping else pong)
    requires forall k :: 0 <= k < |vs| ==> vs[k].output == (if k % 2 == 0 then next else Other(ping, pong, next))
    ensures forall i :: 0 <= i < |hs + vs| ==> (hs + vs)[i].output == (if i % 2 == 0 then ping else pong)
  {
    var all := hs + vs;
    forall i | 0 <= i < |all|
      ensures all[i].output == (if i % 2 == 0 then ping else pong)
    {
      if i < |hs| {
        assert all[i] == hs[i];
      } else {
        assert all[i] == vs[i - |hs|];
      }
    }
  }

  /** The pass chain `__init__` builds for a power-of-two resolution, given the
      two scratch buffers: the horizontal loop, then the vertical loop
      continuing from where the horizontal one left off. */
  function Schedule(config: FftConfig, inputSpectrum: TexId, ping: TexId, pong: TexId, binStart: int): (f: OceanIfft)
    requires IsPow2(config.resolution)
    ensures f.config == config && f.inputSpectrum == inputSpectrum && f.ping == ping && f.pong == pong
    ensures Pow2(f.stages) == config.resolution && |f.passes| == 2 * f.stages
    ensures f.groupsX * WorkgroupSizeX >= config.resolution / 2
    ensures (f.groupsX - 1) * WorkgroupSizeX < config.resolution / 2
  {
    var n := config.resolution;
    var groupsX := ButterflyGroups(n);
    var stages := Log2(n);
    var h := RunStages(Horizontal, stages, 0, n, groupsX, ping, pong, Cursor(inputSpectrum, ping, binStart));
    var v := RunStages(Vertical, stages, 0, n, groupsX, ping, pong, h.cursor);
    OceanIfft(config, inputSpectrum, ping, pong, groupsX, stages, h.passes + v.passes, v.cursor.input)
  }

  /** Pass attributes of the schedule: horizontal passes then vertical ones,
      strides restarting at 1 in each direction, consecutive bins. */
  lemma ScheduleShape(config: FftConfig, inputSpectrum: TexId, ping: TexId, pong: TexId, binStart: int)
    requires IsPow2(config.resolution)
    ensures var f := Schedule(config, inputSpectrum, ping, pong, binStart);
      && Pow2(f.stages) == config.resolution
      && |f.passes| == 2 * f.stages
      && (forall i :: 0 <= i < |f.passes| ==>
          && f.passes[i].dir == (if i < f.stages then Horizontal else Vertical)
          && f.passes[i].subseqCount == Pow2(if i < f.stages then i else i - f.stages)
          && f.passes[i].totalCount == config.resolution
          && f.passes[i].groups == Groups(f.groupsX, config.resolution, 1)
          && f.passes[i].bin == binStart + i)
  {
    var n := config.resolution;
    var groupsX := ButterflyGroups(n);
    var stages := Log2(n);
    var start := Cursor(inputSpectrum, ping, binStart);
    var h := RunStages(Horizontal, stages, 0, n, groupsX, ping, pong, start);
    var v := RunStages(Vertical, stages, 0, n, groupsX, ping, pong, h.cursor);
    var f := Schedule(config, inputSpectrum, ping, pong, binStart);
    RunStagesShaped(Horizontal, stages, 0, n, groupsX, ping, pong, start);
    RunStagesShaped(Vertical, stages, 0, n, groupsX, ping, pong, h.cursor);
    assert h.cursor.order == binStart + stages;
    forall i | 0 <= i < |f.passes|
      ensures f.passes[i] == if i < stages then h.passes[i] else v.passes[i - stages]
    {
    }
  }

  /** Buffer discipline of the schedule, whenever the scratch buffers are two
      distinct textures other than the input spectrum. */
  lemma ScheduleBuffers(config: FftConfig, inputSpectrum: TexId, ping: TexId, pong: TexId, binStart: int)
    requires IsPow2(config.resolution)
    requires ping != pong && inputSpectrum != ping && inputSpectrum != pong
    ensures ScheduledBuffers(Schedule(config, inputSpectrum, ping, pong, binStart))
  {
    var n := config.resolution;
    var groupsX := ButterflyGroups(n);
    var stages := Log2(n);
    var start := Cursor(inputSpectrum, ping, binStart);
    var h := RunStages(Horizontal, stages, 0, n, groupsX, ping, pong, start);
    var v := RunStages(Vertical, stages, 0, n, groupsX, ping, pong, h.cursor);
    var f := Schedule(config, inputSpectrum, ping, pong, binStart);
    RunStagesLinked(Horizontal, stages, 0, n, groupsX, ping, pong, start);
    RunStagesLinked(Vertical, stages, 0, n, groupsX, ping, pong, h.cursor);
    JoinChains(h, v, stages, ping, pong, start);
    assert f.passes == h.passes + v.passes;
    assert stages > 0 ==> f.passes[2 * stages - 1] == v.passes[stages - 1];
  }

  /** The schedule keeps all its promises. */
  lemma ScheduleIsScheduled(config: FftConfig, inputSpectrum: TexId, ping: TexId, pong: TexId, binStart: int)
    requires IsPow2(config.resolution)
    requires ping != pong && inputSpectrum != ping && inputSpectrum != pong
    ensures Scheduled(Schedule(config, inputSpectrum, ping, pong, binStart), binStart)
  {
    ScheduleShape(config, inputSpectrum, ping, pong, binStart);
    ScheduleBuffers(config, inputSpectrum, ping, pong, binStart);
  }

  /** Builds the inverse FFT: rejects any resolution that is not a positive
      power of two, otherwise creates the two RGBA scratch textures and the
      scheduled passes. */
  function New(s: Store, inputSpectrum: TexId, config: FftConfig, binStart: int): (r: Result<Built>)
    requires s.Has(inputSpectrum)
    ensures r.Ok? <==> ResolutionAccepted(config.resolution)
    ensures r.Ok? <==> IsPow2(config.resolution)
    ensures r.Ok? ==>
      var f := r.value.ifft;
      && r.value.store.Extends(s)
      && f.config == config && f.inputSpectrum == inputSpectrum
      && !s.Has(f.ping) && !s.Has(f.pong)
      && r.value.store.IsSquare(f.ping, config.resolution)
      && r.value.store.IsSquare(f.pong, config.resolution)
      && r.value.store.Get(f.ping).format == Rgba32 && r.value.store.Get(f.pong).format == Rgba32
      && f.groupsX * WorkgroupSizeX >= config.resolution / 2
      && (f.groupsX - 1) * WorkgroupSizeX < config.resolution / 2
      && Scheduled(f, binStart)
  {
    var n := config.resolution;
    ResolutionAcceptedIffPow2(n);
    if n <= 0 || BitAnd(n, n - 1) != 0 then Err("resolution must be a power of two")
    else
      BitTestIsPowerOfTwo(n);
      var a := Allocate(s, Blank("fft_ping", n, Rgba32));
      var b := Allocate(a.store, Blank("fft_pong", n, Rgba32));
      ExtendsTrans(b.store, a.store, s);
      ExtendsKeeps(b.store, a.store, a.id);
      ScheduleIsScheduled(config, inputSpectrum, a.id, b.id, binStart);
      Ok(Built(b.store, Schedule(config, inputSpectrum, a.id, b.id, binStart)))
  }

  /** With n >= 2 the displacement is always the second scratch buffer (the
      pass count 2*log2(n) is even), and with n = 1 there are no passes and the
      displacement is the input spectrum itself. */
  lemma DisplacementBuffer(f: OceanIfft, binStart: int)
    requires Scheduled(f, binStart)
    ensures f.config.resolution >= 2 ==> f.displacement == f.pong
    ensures f.config.resolution == 1 ==> f.stages == 0 && f.passes == [] && f.displacement == f.inputSpectrum
  {
    if f.stages == 0 {
      assert f.config.resolution == 1;
    } else {
      assert (2 * f.stages - 1) % 2 == 1;
      assert f.config.resolution >= 2;
    }
  }

  /** The stride of every pass lies between 1 and n/2. */
  lemma StridesInRange(f: OceanIfft, binStart: int, i: int)
    requires Scheduled(f, binStart) && 0 <= i < |f.passes|
    ensures 1 <= f.passes[i].subseqCount && 2 * f.passes[i].subseqCount <= f.config.resolution
  {
    var stage := if i < f.stages then i else i - f.stages;
    Pow2Monotone(stage, f.stages - 1);
    assert Pow2(f.stages) == 2 * Pow2(f.stages - 1);
  }

  /** The passes are strictly ordered by bin. */
  lemma BinsStrictlyIncrease(f: OceanIfft, binStart: int, i: int, j: int)
    requires Scheduled(f, binStart) && 0 <= i < j < |f.passes|
    ensures f.passes[i].bin < f.passes[j].bin
  {
  }
}

=== FILE: ocean_app.dfy ===
/** The application's simulation wiring: the startup chain
    spectrum -> time spectrum -> inverse FFT -> displacement/slope -> ocean draw,
    the per-frame tick, and the live parameter setters that push one value
    into every stage's copy of the configuration. */
module OceanApp {
  import opened Results
  import opened Bits
  import opened Gpu
  import SpectrumGenerator
  import TimeSpectrum
  import Ifft2d
  import Displacement

  /** Draw bin of the ocean surface, after every compute pass. */
  const OceanDrawBin: int := 1000

  /** The simulation parameters the application owns. */
  datatype Params = Params(resolution: int, oceanSize: int, windX: real, windY: real, choppiness: real)

  /** The values the application starts with. */
  const StartupParams: Params := Params(1024, 150, 60.0, 30.0, 1.5)

  /** The ocean surface node and the two maps it samples. */
  datatype DrawNode = DrawNode(bin: int, displacementMap: TexId, normalMap: TexId)

  datatype App = App(
    store: Store,
    params: Params,
    initialSpectrumTex: TexId,
    spectrumDispatch: SpectrumGenerator.Dispatch,
    time: TimeSpectrum.OceanTime,
    ifft: Ifft2d.OceanIfft,
    maps: Displacement.OceanMaps,
    oceanDraw: DrawNode)

  /** The simulation part of what `get_ocean_parameters` reports. */
  datatype OceanParameters = OceanParameters(resolution: int, oceanSize: int, windX: real, windY: real, choppiness: real)

  function SpectrumConfigOf(p: Params): SpectrumGenerator.SpectrumConfig
  {
    SpectrumGenerator.SpectrumConfig(p.resolution, p.oceanSize, p.windX, p.windY)
  }

  /** The eight textures of the pipeline, in creation order. */
  function Textures(a: App): seq<TexId>
  {
    [a.initialSpectrumTex, a.time.phasePing, a.time.phasePong, a.time.spectrum,
     a.ifft.ping, a.ifft.pong, a.maps.displacementMap, a.maps.slopeMap]
  }

  /** Every texture of the pipeline exists, is resolution x resolution, and is
      a different object from every other. */
  predicate Sized(a: App)
  {
    var ts := Textures(a);
    && (forall i :: 0 <= i < |ts| ==> a.store.IsSquare(ts[i], a.params.resolution))
    && (forall i, j :: 0 <= i < j < |ts| ==> ts[i] != ts[j])
  }

  /** Each stage consumes the previous stage's output. */
  predicate Chained(a: App)
  {
    && a.time.initialSpectrum == a.initialSpectrumTex
    && a.ifft.inputSpectrum == a.time.spectrum
    && a.maps.ifftOutput == a.ifft.displacement
    && a.oceanDraw.displacementMap == a.maps.displacementMap
    && a.oceanDraw.normalMap == a.maps.slopeMap
  }

  /** Every copy of a parameter agrees with the application's own value: the
      stage configurations, the shader inputs bound from them, and the last
      spectrum dispatch, which wrote into the initial spectrum texture. */
  predicate Configured(a: App)
  {
    var p := a.params;
    && a.time.config == TimeSpectrum.TimeConfig(p.resolution, p.oceanSize, p.choppiness)
    && a.ifft.config == Ifft2d.FftConfig(p.resolution)
    && a.maps.config == Displacement.MapsConfig(p.resolution, p.oceanSize)
    && SpectrumGenerator.DispatchFor(a.spectrumDispatch, SpectrumConfigOf(p), a.initialSpectrumTex)
  }

  /** The application invariant. */
  predicate Wired(a: App)
  {
    && Chained(a)
    && Configured(a)
    && TimeSpectrum.Wired(a.time)
    && Ifft2d.Scheduled(a.ifft, Ifft2d.DefaultBinStart)
    && Displacement.Wired(a.maps)
    && a.maps.unpackNode.bin == Displacement.DefaultBinStart
    && a.oceanDraw.bin == OceanDrawBin
    && Sized(a)
  }

  /** The stages before the inverse FFT: the initial spectrum generated into a
      new texture, and the time spectrum built on it. */
  datatype Front = Front(store: Store, initialSpectrumTex: TexId,
                         dispatch: SpectrumGenerator.Dispatch, time: TimeSpectrum.OceanTime)

  function BuildFront(p: Params, draws: seq<real>): (f: Front)
    requires |draws| == p.resolution * p.resolution && TimeSpectrum.UnitDraws(draws)
    ensures f.store.Has(f.time.spectrum)
    ensures f.store.IsSquare(f.initialSpectrumTex, p.resolution)
    ensures f.time.initialSpectrum == f.initialSpectrumTex
    ensures f.time.spectrum != f.initialSpectrumTex
    ensures f.time.config == TimeSpectrum.TimeConfig(p.resolution, p.oceanSize, p.choppiness)
    ensures TimeSpectrum.Wired(f.time)
    ensures SpectrumGenerator.DispatchFor(f.dispatch, SpectrumConfigOf(p), f.initialSpectrumTex)
  {
    var gen := SpectrumGenerator.Generate(Store([]), SpectrumConfigOf(p), None);
    var tb := TimeSpectrum.New(gen.store, gen.texture,
                               TimeSpectrum.TimeConfig(p.resolution, p.oceanSize, p.choppiness), draws);
    ExtendsKeeps(tb.store, gen.store, gen.texture);
    Front(tb.store, gen.texture, gen.dispatch, tb.time)
  }

  /** Startup: generate the initial spectrum into a new texture, then build the
      time spectrum on it, the inverse FFT on the time spectrum and the maps on
      the FFT's output. Fails exactly when the inverse FFT rejects the
      resolution. */
  function New(p: Params, draws: seq<real>): (r: Result<App>)
    requires |draws| == p.resolution * p.resolution && TimeSpectrum.UnitDraws(draws)
    ensures r.Ok? <==> IsPow2(p.resolution)
    ensures r.Ok? ==> r.value.params == p
  {
    var front := BuildFront(p, draws);
    var fr := Ifft2d.New(front.store, front.time.spectrum, Ifft2d.FftConfig(p.resolution), Ifft2d.DefaultBinStart);
    match fr
    case Err(e) => Err(e)
    case Ok(fb) =>
      var mb := Displacement.New(fb.store, fb.ifft.displacement,
                                 Displacement.MapsConfig(p.resolution, p.oceanSize),
                                 Displacement.DefaultBinStart);
      Ok(App(mb.store, p, front.initialSpectrumTex, front.dispatch, front.time, fb.ifft, mb.maps,
             DrawNode(OceanDrawBin, mb.maps.displacementMap, mb.maps.slopeMap)))
  }

  /** Startup establishes the application invariant. */
  lemma NewIsWired(p: Params, draws: seq<real>)
    requires |draws| == p.resolution * p.resolution && TimeSpectrum.UnitDraws(draws)
    requires IsPow2(p.resolution)
    ensures New(p, draws).Ok? && Wired(New(p, draws).value)
  {
    var gen := SpectrumGenerator.Generate(Store([]), SpectrumConfigOf(p), None);
    var tb := TimeSpectrum.New(gen.store, gen.texture,
                               TimeSpectrum.TimeConfig(p.resolution, p.oceanSize, p.choppiness), draws);
    ExtendsKeeps(tb.store, gen.store, gen.texture);
    ResolutionAcceptedIffPow2(p.resolution);
    var fr := Ifft2d.New(tb.store, tb.time.spectrum, Ifft2d.FftConfig(p.resolution), Ifft2d.DefaultBinStart);
    var fb := fr.value;
    var mb := Displacement.New(fb.store, fb.ifft.displacement,
                               Displacement.MapsConfig(p.resolution, p.oceanSize),
                               Displacement.DefaultBinStart);
    var a := New(p, draws).value;
    assert BuildFront(p, draws) == Front(tb.store, gen.texture, gen.dispatch, tb.time);
    assert a == App(mb.store, p, gen.texture, gen.dispatch, tb.time, fb.ifft, mb.maps,
                    DrawNode(OceanDrawBin, mb.maps.displacementMap, mb.maps.slopeMap));
    NewSized(gen.store, tb.store, fb.store, mb.store, a);
  }

  /** The values the application starts with pass the resolution check, so
      startup succeeds and wires the whole chain. */
  lemma StartupIsWired(draws: seq<real>)
    requires |draws| == StartupParams.resolution * StartupParams.resolution && TimeSpectrum.UnitDraws(draws)
    ensures New(StartupParams, draws).Ok? && Wired(New(StartupParams, draws).value)
  {
    Pow2IsPow2(10);
    assert Pow2(10) == 1024;
    NewIsWired(StartupParams, draws);
  }

  /** Textures created by successive stages on a growing store are distinct
      and keep their sizes. */
  lemma NewSized(s1: Store, s2: Store, s3: Store, s4: Store, a: App)
    requires s2.Extends(s1) && s3.Extends(s2) && s4.Extends(s3) && a.store == s4
    requires s1.IsSquare(a.initialSpectrumTex, a.params.resolution)
    requires var t := a.time;
      && !s1.Has(t.phasePing) && !s1.Has(t.phasePong) && !s1.Has(t.spectrum)
      && t.phasePing != t.phasePong && t.phasePing != t.spectrum && t.phasePong != t.spectrum
      && s2.IsSquare(t.phasePing, a.params.resolution) && s2.IsSquare(t.phasePong, a.params.resolution)
      && s2.IsSquare(t.spectrum, a.params.resolution)
    requires !s2.Has(a.ifft.ping) && !s2.Has(a.ifft.pong) && a.ifft.ping != a.ifft.pong
    requires s3.IsSquare(a.ifft.ping, a.params.resolution) && s3.IsSquare(a.ifft.pong, a.params.resolution)
    requires !s3.Has(a.maps.displacementMap) && !s3.Has(a.maps.slopeMap)
    requires a.maps.displacementMap != a.maps.slopeMap
    requires s4.IsSquare(a.maps.displacementMap, a.params.resolution)
    requires s4.IsSquare(a.maps.slopeMap, a.params.resolution)
    ensures Sized(a)
  {
    ExtendsTrans(s3, s2, s1);
    ExtendsTrans(s4, s3, s1);
    ExtendsTrans(s4, s3, s2);
    ExtendsKeeps(s4, s1, a.initialSpectrumTex);
    ExtendsKeeps(s4, s2, a.time.phasePing);
    ExtendsKeeps(s4, s2, a.time.phasePong);
    ExtendsKeeps(s4, s2, a.time.spectrum);
    ExtendsKeeps(s4, s3, a.ifft.ping);
    ExtendsKeeps(s4, s3, a.ifft.pong);
  }

  /** One frame: advance the phase ping/pong. */
  function Tick(a: App, deltaTime: real): (r: App)
    ensures r.time.phaseIsPing == !a.time.phaseIsPing
    ensures r.time.spectrumNode.Bound(UPhases, TexV(TimeSpectrum.DebugCurrentPhaseTexture(r.time)))
    ensures r.time.phaseNode.Bound(UDeltaTime, RealV(deltaTime))
    ensures r.(time := a.time) == a
    ensures r.time.(phaseIsPing := a.time.phaseIsPing, phaseNode := a.time.phaseNode,
                    spectrumNode := a.time.spectrumNode) == a.time
    ensures r.time.phaseNode.Bound(UPhases, TexV(TimeSpectrum.SrcFor(a.time, a.time.phaseIsPing)))
    ensures r.time.phaseNode.Bound(UDeltaPhases, TexV(TimeSpectrum.DstFor(a.time, a.time.phaseIsPing)))
  {
    TimeSpectrum.DebugShowsLastWritten(a.time, deltaTime);
    a.(time := TimeSpectrum.Step(a.time, deltaTime))
  }

  /** Regenerates the initial spectrum in place, from the current resolution,
      ocean size and wind, into the texture the time spectrum already reads. */
  function RegenerateInitialSpectrum(a: App): (r: App)
    ensures r.store == a.store && r.initialSpectrumTex == a.initialSpectrumTex
    ensures SpectrumGenerator.DispatchFor(r.spectrumDispatch, SpectrumConfigOf(a.params), a.initialSpectrumTex)
    ensures r.(spectrumDispatch := a.spectrumDispatch) == a
  {
    var g := SpectrumGenerator.Generate(a.store, SpectrumConfigOf(a.params), Some(a.initialSpectrumTex));
    a.(store := g.store, spectrumDispatch := g.dispatch)
  }

  function SetChoppiness(a: App, value: real): (r: App)
    ensures r.params == a.params.(choppiness := value)
    ensures r.time.config.choppiness == value
    ensures r.time.spectrumNode.Bound(UChoppiness, RealV(value))
    ensures r.(params := a.params, time := a.time) == a
    ensures r.time.(config := a.time.config, spectrumNode := a.time.spectrumNode) == a.time
    ensures r.time.config == a.time.config.(choppiness := value)
    ensures r.time.spectrumNode.(inputs := a.time.spectrumNode.inputs) == a.time.spectrumNode
    ensures r.time.spectrumNode.inputs.Keys == a.time.spectrumNode.inputs.Keys + {UChoppiness}
    ensures forall u :: u != UChoppiness && u in a.time.spectrumNode.inputs ==>
      r.time.spectrumNode.Bound(u, a.time.spectrumNode.inputs[u])
  {
    a.(params := a.params.(choppiness := value),
       time := a.time.(config := a.time.config.(choppiness := value),
                       spectrumNode := a.time.spectrumNode.Bind(UChoppiness, RealV(value))))
  }

  function SetWind(a: App, windX: real, windY: real): (r: App)
    ensures r.params == a.params.(windX := windX, windY := windY)
    ensures SpectrumGenerator.DispatchFor(r.spectrumDispatch, SpectrumConfigOf(r.params), r.initialSpectrumTex)
  {
    RegenerateInitialSpectrum(a.(params := a.params.(windX := windX, windY := windY)))
  }

  function SetOceanSize(a: App, oceanSize: int): (r: App)
    ensures r.params == a.params.(oceanSize := oceanSize)
    ensures r.time.config.oceanSize == oceanSize && r.maps.config.oceanSize == oceanSize
    ensures r.time.phaseNode.Bound(UOceanSize, IntV(oceanSize))
    ensures r.time.spectrumNode.Bound(UOceanSize, IntV(oceanSize))
    ensures r.maps.slopeNode.Bound(UOceanSize, IntV(oceanSize))
    ensures SpectrumGenerator.DispatchFor(r.spectrumDispatch, SpectrumConfigOf(r.params), r.initialSpectrumTex)
    ensures r.store == a.store && r.initialSpectrumTex == a.initialSpectrumTex
    ensures r.ifft == a.ifft && r.oceanDraw == a.oceanDraw
    ensures r.time.(config := a.time.config, phaseNode := a.time.phaseNode, spectrumNode := a.time.spectrumNode) == a.time
    ensures r.maps.(config := a.maps.config, slopeNode := a.maps.slopeNode) == a.maps
    ensures forall u :: u != UOceanSize && u in a.time.phaseNode.inputs ==>
      r.time.phaseNode.Bound(u, a.time.phaseNode.inputs[u])
    ensures forall u :: u != UOceanSize && u in a.time.spectrumNode.inputs ==>
      r.time.spectrumNode.Bound(u, a.time.spectrumNode.inputs[u])
    ensures forall u :: u != UOceanSize && u in a.maps.slopeNode.inputs ==>
      r.maps.slopeNode.Bound(u, a.maps.slopeNode.inputs[u])
    ensures r.time.phaseNode.bin == a.time.phaseNode.bin && r.time.spectrumNode.bin == a.time.spectrumNode.bin
    ensures r.maps.slopeNode.bin == a.maps.slopeNode.bin
    ensures r.time.phaseNode.groups == a.time.phaseNode.groups && r.time.spectrumNode.groups == a.time.spectrumNode.groups
    ensures r.maps.slopeNode.groups == a.maps.slopeNode.groups
    ensures r.time.phaseNode.(inputs := a.time.phaseNode.inputs) == a.time.phaseNode
    ensures r.time.spectrumNode.(inputs := a.time.spectrumNode.inputs) == a.time.spectrumNode
    ensures r.maps.slopeNode.(inputs := a.maps.slopeNode.inputs) == a.maps.slopeNode
    ensures r.time.phaseNode.inputs.Keys == a.time.phaseNode.inputs.Keys + {UOceanSize}
    ensures r.time.spectrumNode.inputs.Keys == a.time.spectrumNode.inputs.Keys + {UOceanSize}
    ensures r.maps.slopeNode.inputs.Keys == a.maps.slopeNode.inputs.Keys + {UOceanSize}
  {
    var t := a.time.(config := a.time.config.(oceanSize := oceanSize),
                     phaseNode := a.time.phaseNode.Bind(UOceanSize, IntV(oceanSize)),
                     spectrumNode := a.time.spectrumNode.Bind(UOceanSize, IntV(oceanSize)));
    var m := a.maps.(config := a.maps.config.(oceanSize := oceanSize),
                     slopeNode := a.maps.slopeNode.Bind(UOceanSize, IntV(oceanSize)));
    RegenerateInitialSpectrum(a.(params := a.params.(oceanSize := oceanSize), time := t, maps := m))
  }

  /** Reports every simulation parameter: the application's parameters can be
      read back from the report. */
  function GetOceanParameters(a: App): (r: OceanParameters)
    ensures Params(r.resolution, r.oceanSize, r.windX, r.windY, r.choppiness) == a.params
  {
    OceanParameters(a.params.resolution, a.params.oceanSize, a.params.windX, a.params.windY, a.params.choppiness)
  }

  /** A frame keeps the application wired. */
  lemma TickPreservesWired(a: App, deltaTime: real)
    requires Wired(a)
    ensures Wired(Tick(a, deltaTime))
  {
    TimeSpectrum.StepPreservesWired(a.time, deltaTime);
    assert Textures(Tick(a, deltaTime)) == Textures(a);
  }

  /** Changing the choppiness keeps the application wired, is reported back,
      and touches nothing but the three copies of the choppiness. */
  lemma SetChoppinessPreservesWired(a: App, value: real)
    requires Wired(a)
    ensures var r := SetChoppiness(a, value);
      && Wired(r)
      && GetOceanParameters(r) == GetOceanParameters(a).(choppiness := value)
      && r.store == a.store && r.spectrumDispatch == a.spectrumDispatch
      && r.ifft == a.ifft && r.maps == a.maps && r.oceanDraw == a.oceanDraw
      && r.time.(config := a.time.config, spectrumNode := a.time.spectrumNode) == a.time
      && r.time.spectrumNode.(inputs := a.time.spectrumNode.inputs) == a.time.spectrumNode
      && r.time.spectrumNode.inputs.Keys == a.time.spectrumNode.inputs.Keys + {UChoppiness}
      && (forall u :: u != UChoppiness && u in a.time.spectrumNode.inputs ==>
            r.time.spectrumNode.Bound(u, a.time.spectrumNode.inputs[u]))
  {
    assert Textures(SetChoppiness(a, value)) == Textures(a);
  }

  /** Changing the wind keeps the application wired (so the spectrum is
      regenerated from the new wind into the same texture), and is reported back. */
  lemma SetWindPreservesWired(a: App, windX: real, windY: real)
    requires Wired(a)
    ensures var r := SetWind(a, windX, windY);
      && Wired(r)
      && GetOceanParameters(r) == GetOceanParameters(a).(windX := windX, windY := windY)
      && r.initialSpectrumTex == a.initialSpectrumTex && r.store == a.store
      && r.time == a.time && r.ifft == a.ifft && r.maps == a.maps
  {
    assert Textures(SetWind(a, windX, windY)) == Textures(a);
  }

  /** Changing the ocean size keeps the application wired: every copy of the
      size agrees with the new value and the spectrum is regenerated from it
      into the same texture. */
  lemma SetOceanSizePreservesWired(a: App, oceanSize: int)
    requires Wired(a)
    ensures var r := SetOceanSize(a, oceanSize);
      && Wired(r)
      && GetOceanParameters(r) == GetOceanParameters(a).(oceanSize := oceanSize)
      && r.initialSpectrumTex == a.initialSpectrumTex && r.store == a.store
      && r.ifft == a.ifft
      && r.time.(config := a.time.config, phaseNode := a.time.phaseNode, spectrumNode := a.time.spectrumNode) == a.time
      && r.maps.(config := a.maps.config, slopeNode := a.maps.slopeNode) == a.maps
      && r.oceanDraw == a.oceanDraw
      && (forall u :: u != UOceanSize && u in a.time.phaseNode.inputs ==>
            r.time.phaseNode.Bound(u, a.time.phaseNode.inputs[u]))
      && (forall u :: u != UOceanSize && u in a.time.spectrumNode.inputs ==>
            r.time.spectrumNode.Bound(u, a.time.spectrumNode.inputs[u]))
      && (forall u :: u != UOceanSize && u in a.maps.slopeNode.inputs ==>
            r.maps.slopeNode.Bound(u, a.maps.slopeNode.inputs[u]))
      && r.time.phaseNode.(inputs := a.time.phaseNode.inputs) == a.time.phaseNode
      && r.time.spectrumNode.(inputs := a.time.spectrumNode.inputs) == a.time.spectrumNode
      && r.maps.slopeNode.(inputs := a.maps.slopeNode.inputs) == a.maps.slopeNode
      && r.time.phaseNode.inputs.Keys == a.time.phaseNode.inputs.Keys + {UOceanSize}
      && r.time.spectrumNode.inputs.Keys == a.time.spectrumNode.inputs.Keys + {UOceanSize}
      && r.maps.slopeNode.inputs.Keys == a.maps.slopeNode.inputs.Keys + {UOceanSize}
  {
    var r := SetOceanSize(a, oceanSize);
    assert Textures(r) == Textures(a);
  }

  /** Every texture the pipeline reads or writes is resolution x resolution,
      and the resolution is the one the application was configured with. */
  lemma StagesShareResolution(a: App)
    requires Wired(a)
    ensures a.time.config.resolution == a.ifft.config.resolution == a.maps.config.resolution == a.params.resolution
    ensures a.store.IsSquare(a.initialSpectrumTex, a.params.resolution)
    ensures a.store.IsSquare(a.ifft.displacement, a.params.resolution)
    ensures a.store.IsSquare(a.maps.slopeMap, a.params.resolution)
  {
    var ts := Textures(a);
    assert ts[0] == a.initialSpectrumTex && ts[7] == a.maps.slopeMap;
    Ifft2d.DisplacementBuffer(a.ifft, Ifft2d.DefaultBinStart);
    if a.params.resolution == 1 {
      assert a.ifft.displacement == ts[3];
    } else {
      assert a.ifft.displacement == ts[5];
    }
  }

  /** The draw bins order the whole chain: phase 0, spectrum 1, the FFT passes
      (none at resolution 1) from 10 on, unpack 100, slope 101, ocean draw 1000.
      The FFT passes stay below the unpack bin as long as the resolution is at
      most 2^45. */
  lemma ComputeChainPrecedesDraw(a: App)
    requires Wired(a) && a.params.resolution <= Pow2(45)
    ensures a.time.phaseNode.bin < a.time.spectrumNode.bin < a.maps.unpackNode.bin
    ensures a.maps.unpackNode.bin < a.maps.slopeNode.bin < a.oceanDraw.bin
    ensures forall i :: 0 <= i < |a.ifft.passes| ==>
      a.time.spectrumNode.bin < a.ifft.passes[i].bin < a.maps.unpackNode.bin
  {
    if a.ifft.stages > 45 {
      Pow2Strict(45, a.ifft.stages);
      assert false;
    }
  }
}

=== FILE: ocean_geometry.dfy ===
/** The ocean surface mesh: a square grid of `(subdiv + 1)^2` vertices centred
    on the origin, with tiled UVs and an index buffer of two triangles per quad. */
module OceanGeometry {
  import opened Results

  datatype Vec3 = Vec3(x: real, y: real, z: real)
  datatype Vec2 = Vec2(u: real, v: real)
  datatype Vertex = Vertex(pos: Vec3, normal: Vec3, uv: Vec2)
  datatype Tri = Tri(a: int, b: int, c: int)
  datatype Mesh = Mesh(vertices: seq<Vertex>, triangles: seq<Tri>)

  /** The arguments of the mesh generator: world size of the plane, quads per
      side, and how often the UV range [0, 1] repeats across it. */
  datatype GridSpec = GridSpec(gridSize: real, subdiv: int, uvTiles: real)

  /** Vertices per side. */
  function Side(g: GridSpec): int
  {
    g.subdiv + 1
  }

  /** Row-major position of vertex (i, j) in the vertex buffer. */
  function Index(g: GridSpec, i: int, j: int): int
  {
    j * Side(g) + i
  }

  /** Position of the first of the two triangles of quad (i, j) in the index buffer. */
  function QuadSlot(g: GridSpec, i: int, j: int): int
  {
    2 * (j * g.subdiv + i)
  }

  /** Vertex (i, j): on the z = 0 plane at (-half + i*step, -half + j*step),
      facing +z, with UV (i/subdiv, j/subdiv) scaled by the tiling. */
  function VertexAt(g: GridSpec, i: int, j: int): Vertex
    requires g.subdiv >= 1
  {
    var half := g.gridSize * 0.5;
    var step := g.gridSize / g.subdiv as real;
    Vertex(Vec3(-half + i as real * step, -half + j as real * step, 0.0),
           Vec3(0.0, 0.0, 1.0),
           Vec2((i as real / g.subdiv as real) * g.uvTiles, (j as real / g.subdiv as real) * g.uvTiles))
  }

  /** The two triangles of quad (i, j), over corners
      i0 = (i, j), i1 = (i+1, j), i2 = (i, j+1), i3 = (i+1, j+1). */
  function QuadFirst(g: GridSpec, i: int, j: int): Tri
  {
    Tri(Index(g, i, j), Index(g, i + 1, j), Index(g, i, j + 1))
  }

  function QuadSecond(g: GridSpec, i: int, j: int): Tri
  {
    Tri(Index(g, i + 1, j), Index(g, i + 1, j + 1), Index(g, i, j + 1))
  }

  /** The first n vertices of row j, in emission order. */
  function VertexRow(g: GridSpec, j: int, n: nat): seq<Vertex>
    requires g.subdiv >= 1
  {
    if n == 0 then [] else VertexRow(g, j, n - 1) + [VertexAt(g, n - 1, j)]
  }

  /** The vertices of the first m rows, in emission order. */
  function VertexRows(g: GridSpec, m: nat): seq<Vertex>
    requires g.subdiv >= 1
  {
    if m == 0 then [] else VertexRows(g, m - 1) + VertexRow(g, m - 1, Side(g))
  }

  /** The triangles of the first n quads of row j, in emission order. */
  function TriRow(g: GridSpec, j: int, n: nat): seq<Tri>
  {
    if n == 0 then [] else TriRow(g, j, n - 1) + [QuadFirst(g, n - 1, j), QuadSecond(g, n - 1, j)]
  }

  /** The triangles of the first m quad rows, in emission order. */
  function TriRows(g: GridSpec, m: nat): seq<Tri>
    requires g.subdiv >= 1
  {
    if m == 0 then [] else TriRows(g, m - 1) + TriRow(g, m - 1, g.subdiv)
  }

  /** All three indices of `t` address one of `count` vertices. */
  predicate InRange(t: Tri, count: int)
  {
    0 <= t.a < count && 0 <= t.b < count && 0 <= t.c < count
  }

  /** What the generator promises of its mesh: (subdiv+1)^2 vertices with
      vertex (i, j) at row-major index j*(subdiv+1)+i, 2*subdiv^2 triangles, the
      two triangles of quad (i, j) at slots 2*(j*subdiv+i) and the next, and
      every index addressing an existing vertex. */
  predicate IsOceanGrid(g: GridSpec, m: Mesh)
  {
    && g.subdiv >= 1
    && |m.vertices| == Side(g) * Side(g)
    && (forall i, j :: 0 <= i < Side(g) && 0 <= j < Side(g) ==> VertexPlaced(g, m.vertices, i, j))
    && |m.triangles| == 2 * (g.subdiv * g.subdiv)
    && (forall i, j :: 0 <= i < g.subdiv && 0 <= j < g.subdiv ==> QuadAt(g, m.triangles, i, j))
    && (forall t :: 0 <= t < |m.triangles| ==> InRange(m.triangles[t], |m.vertices|))
  }

  lemma {:induction false} VertexRowFacts(g: GridSpec, j: int, n: nat)
    requires g.subdiv >= 1
    ensures |VertexRow(g, j, n)| == n
    ensures forall i :: 0 <= i < n ==> VertexRow(g, j, n)[i] == VertexAt(g, i, j)
  {
    if n > 0 {
      VertexRowFacts(g, j, n - 1);
    }
  }

  /** Rows are laid out one after another, so vertex (i, r) sits at
      r*(subdiv+1)+i. */
  lemma {:induction false} VertexRowsFacts(g: GridSpec, m: nat)
    requires g.subdiv >= 1
    ensures |VertexRows(g, m)| == m * Side(g)
    ensures forall r, i :: 0 <= r < m && 0 <= i < Side(g) ==> VertexPlaced(g, VertexRows(g, m), i, r)
  {
    if m > 0 {
      var s := Side(g);
      VertexRowsFacts(g, m - 1);
      VertexRowFacts(g, m - 1, s);
      var prev := VertexRows(g, m - 1);
      var row := VertexRow(g, m - 1, s);
      assert VertexRows(g, m) == prev + row;
      assert (m - 1) * s + s == m * s;
      forall r, i | 0 <= r < m && 0 <= i < s
        ensures VertexPlaced(g, VertexRows(g, m), i, r)
      {
        if r < m - 1 {
          VertexPlacedExtends(g, prev, row, i, r);
        } else {
          VertexPlacedLastRow(g, prev, row, i, r);
        }
      }
    }
  }

  /** Vertex (i, r) sits at its row-major index of `vs`. */
  predicate VertexPlaced(g: GridSpec, vs: seq<Vertex>, i: int, r: int)
    requires g.subdiv >= 1
  {
    0 <= Index(g, i, r) < |vs| && vs[Index(g, i, r)] == VertexAt(g, i, r)
  }

  lemma VertexPlacedExtends(g: GridSpec, prev: seq<Vertex>, row: seq<Vertex>, i: int, r: int)
    requires g.subdiv >= 1 && VertexPlaced(g, prev, i, r)
    ensures VertexPlaced(g, prev + row, i, r)
  {
  }

  lemma VertexPlacedLastRow(g: GridSpec, prev: seq<Vertex>, row: seq<Vertex>, i: int, r: int)
    requires g.subdiv >= 1 && 0 <= i < Side(g) && 0 <= r
    requires |prev| == r * Side(g) && |row| == Side(g) && row[i] == VertexAt(g, i, r)
    ensures VertexPlaced(g, prev + row, i, r)
  {
    assert Index(g, i, r) == |prev| + i;
  }

  lemma MulMonotone(a: int, b: int, c: int)
    requires a <= b && 0 <= c
    ensures a * c <= b * c
  {
  }

  lemma {:induction false} TriRowFacts(g: GridSpec, j: int, n: nat)
    ensures |TriRow(g, j, n)| == 2 * n
    ensures forall i :: 0 <= i < n ==>
      TriRow(g, j, n)[2 * i] == QuadFirst(g, i, j) && TriRow(g, j, n)[2 * i + 1] == QuadSecond(g, i, j)
  {
    if n > 0 {
      TriRowFacts(g, j, n - 1);
    }
  }

  /** Quad rows are laid out one after another, two triangles per quad, so the
      triangles of quad (i, r) sit at 2*(r*subdiv+i) and the next slot. */
  lemma {:induction false} TriRowsFacts(g: GridSpec, m: nat)
    requires g.subdiv >= 1
    ensures |TriRows(g, m)| == 2 * (m * g.subdiv)
    ensures forall r, i :: 0 <= r < m && 0 <= i < g.subdiv ==> QuadAt(g, TriRows(g, m), i, r)
  {
    if m > 0 {
      var s := g.subdiv;
      TriRowsFacts(g, m - 1);
      TriRowFacts(g, m - 1, s);
      var prev := TriRows(g, m - 1);
      var row := TriRow(g, m - 1, s);
      assert TriRows(g, m) == prev + row;
      assert (m - 1) * s + s == m * s;
      forall r, i | 0 <= r < m && 0 <= i < s
        ensures QuadAt(g, TriRows(g, m), i, r)
      {
        if r < m - 1 {
          QuadAtExtends(g, prev, row, i, r);
        } else {
          QuadAtLastRow(g, prev, row, i, r);
        }
      }
    }
  }

  /** The two triangles of quad (i, r) sit at 2*(r*subdiv+i) and the next slot of `tris`. */
  predicate QuadAt(g: GridSpec, tris: seq<Tri>, i: int, r: int)
  {
    && 0 <= QuadSlot(g, i, r) && QuadSlot(g, i, r) + 1 < |tris|
    && tris[QuadSlot(g, i, r)] == QuadFirst(g, i, r)
    && tris[QuadSlot(g, i, r) + 1] == QuadSecond(g, i, r)
  }

  lemma QuadAtExtends(g: GridSpec, prev: seq<Tri>, row: seq<Tri>, i: int, r: int)
    requires QuadAt(g, prev, i, r)
    ensures QuadAt(g, prev + row, i, r)
  {
  }

  lemma QuadAtLastRow(g: GridSpec, prev: seq<Tri>, row: seq<Tri>, i: int, r: int)
    requires g.subdiv >= 1 && 0 <= i < g.subdiv && 0 <= r
    requires |prev| == 2 * (r * g.subdiv) && |row| == 2 * g.subdiv
    requires row[2 * i] == QuadFirst(g, i, r) && row[2 * i + 1] == QuadSecond(g, i, r)
    ensures QuadAt(g, prev + row, i, r)
  {
    assert QuadSlot(g, i, r) == |prev| + 2 * i;
  }

  /** Every triangle of quad row j addresses only rows j and j + 1. */
  lemma {:induction false} TriRowInRange(g: GridSpec, j: nat, n: nat)
    requires g.subdiv >= 1 && n <= g.subdiv
    ensures forall t :: 0 <= t < |TriRow(g, j, n)| ==>
      j * Side(g) <= TriRow(g, j, n)[t].a < (j + 2) * Side(g)
      && j * Side(g) <= TriRow(g, j, n)[t].b < (j + 2) * Side(g)
      && j * Side(g) <= TriRow(g, j, n)[t].c < (j + 2) * Side(g)
  {
    if n > 0 {
      TriRowInRange(g, j, n - 1);
      var s := Side(g);
      var base := j * s;
      assert (j + 1) * s == base + s && (j + 2) * s == base + 2 * s;
      var prev := TriRow(g, j, n - 1);
      var row := TriRow(g, j, n);
      forall t | 0 <= t < |row|
        ensures base <= row[t].a < base + 2 * s && base <= row[t].b < base + 2 * s
             && base <= row[t].c < base + 2 * s
      {
        if t < |prev| {
          assert row[t] == prev[t];
        } else {
          assert Index(g, n - 1, j) == base + n - 1 && Index(g, n, j) == base + n;
          assert Index(g, n - 1, j + 1) == base + s + n - 1 && Index(g, n, j + 1) == base + s + n;
        }
      }
    }
  }

  /** Every triangle of the first m quad rows addresses one of the first
      (m + 1) rows of vertices. */
  lemma {:induction false} TriRowsInRange(g: GridSpec, m: nat)
    requires g.subdiv >= 1
    ensures forall t :: 0 <= t < |TriRows(g, m)| ==> InRange(TriRows(g, m)[t], (m + 1) * Side(g))
  {
    if m > 0 {
      var s := Side(g);
      TriRowsInRange(g, m - 1);
      TriRowInRange(g, m - 1, g.subdiv);
      MulMonotone(m, m + 1, s);
      assert (m - 1 + 2) * s == (m + 1) * s;
      var prev := TriRows(g, m - 1);
      var row := TriRow(g, m - 1, g.subdiv);
      forall t | 0 <= t < |TriRows(g, m)|
        ensures InRange(TriRows(g, m)[t], (m + 1) * s)
      {
        if t < |prev| {
          assert TriRows(g, m)[t] == prev[t];
        } else {
          assert TriRows(g, m)[t] == row[t - |prev|];
          assert 0 <= (m - 1) * s;
        }
      }
    }
  }

  /** Writes row j of the vertex buffer: position, +z normal and tiled UV of
      each of the `subdiv + 1` vertices, left to right. */
  method EmitVertexRow(g: GridSpec, j: int) returns (row: seq<Vertex>)
    requires g.subdiv >= 1
    ensures row == VertexRow(g, j, Side(g))
  {
    var half := g.gridSize * 0.5;
    var step := g.gridSize / g.subdiv as real;
    var v := (j as real / g.subdiv as real) * g.uvTiles;
    var y := -half + j as real * step;
    row := [];
    var i := 0;
    while i < Side(g)
      invariant 0 <= i <= Side(g)
      invariant row == VertexRow(g, j, i)
    {
      var u := (i as real / g.subdiv as real) * g.uvTiles;
      var x := -half + i as real * step;
      var vertex := Vertex(Vec3(x, y, 0.0), Vec3(0.0, 0.0, 1.0), Vec2(u, v));
      assert vertex == VertexAt(g, i, j);
      assert VertexRow(g, j, i + 1) == VertexRow(g, j, i) + [VertexAt(g, i, j)];
      row := row + [vertex];
      i := i + 1;
    }
  }

  /** Writes row j of the index buffer: two triangles for each of the
      `subdiv` quads between vertex rows j and j + 1. */
  method EmitTriangleRow(g: GridSpec, j: int) returns (row: seq<Tri>)
    requires g.subdiv >= 0
    ensures row == TriRow(g, j, g.subdiv)
  {
    var row0 := j * Side(g);
    var row1 := (j + 1) * Side(g);
    row := [];
    var i := 0;
    while i < g.subdiv
      invariant 0 <= i <= g.subdiv
      invariant row == TriRow(g, j, i)
    {
      var i0 := row0 + i;
      var i1 := row0 + i + 1;
      var i2 := row1 + i;
      var i3 := row1 + i + 1;
      row := row + [Tri(i0, i1, i2), Tri(i1, i3, i2)];
      i := i + 1;
    }
  }

  /** The vertex buffer, one row after another. */
  method EmitVertices(g: GridSpec) returns (vertices: seq<Vertex>)
    requires g.subdiv >= 1
    ensures vertices == VertexRows(g, Side(g))
  {
    vertices := [];
    var j := 0;
    while j < Side(g)
      invariant 0 <= j <= Side(g)
      invariant vertices == VertexRows(g, j)
    {
      var row := EmitVertexRow(g, j);
      vertices := vertices + row;
      j := j + 1;
    }
  }

  /** The index buffer, one quad row after another. */
  method EmitTriangles(g: GridSpec) returns (triangles: seq<Tri>)
    requires g.subdiv >= 1
    ensures triangles == TriRows(g, g.subdiv)
  {
    triangles := [];
    var j := 0;
    while j < g.subdiv
      invariant 0 <= j <= g.subdiv
      invariant triangles == TriRows(g, j)
    {
      var row := EmitTriangleRow(g, j);
      triangles := triangles + row;
      j := j + 1;
    }
  }

  /** The row-by-row buffers form the promised grid. */
  lemma RowsFormGrid(g: GridSpec)
    requires g.subdiv >= 1
    ensures IsOceanGrid(g, Mesh(VertexRows(g, Side(g)), TriRows(g, g.subdiv)))
  {
    VertexRowsFacts(g, Side(g));
    TriRowsFacts(g, g.subdiv);
    TriRowsInRange(g, g.subdiv);
  }

  /** Builds the mesh: rejects fewer than one subdivision, otherwise writes the
      vertices row by row and then two triangles per quad. */
  method MakeOceanGrid(gridSize: real, gridSubdiv: int, uvTiles: real) returns (r: Result<Mesh>)
    ensures r.Err? <==> gridSubdiv < 1
    ensures r.Ok? ==> IsOceanGrid(GridSpec(gridSize, gridSubdiv, uvTiles), r.value)
  {
    var g := GridSpec(gridSize, gridSubdiv, uvTiles);
    if gridSubdiv < 1 {
      return Err("grid_subdiv must be >= 1");
    }
    var vertices := EmitVertices(g);
    var triangles := EmitTriangles(g);
    RowsFormGrid(g);
    r := Ok(Mesh(vertices, triangles));
  }

  /** UVs run from 0 at the first vertex of a row or column to `uvTiles` at
      the last, and stay within [0, uvTiles] in between. */
  lemma UVSpan(g: GridSpec, i: int, j: int)
    requires g.subdiv >= 1 && 0 <= i <= g.subdiv && 0 <= j <= g.subdiv
    ensures var uv := VertexAt(g, i, j).uv;
      && (i == 0 ==> uv.u == 0.0) && (i == g.subdiv ==> uv.u == g.uvTiles)
      && (j == 0 ==> uv.v == 0.0) && (j == g.subdiv ==> uv.v == g.uvTiles)
      && (g.uvTiles >= 0.0 ==> 0.0 <= uv.u <= g.uvTiles && 0.0 <= uv.v <= g.uvTiles)
  {
    var uv := VertexAt(g, i, j).uv;
    assert uv.u == UVCoord(g, i);
    assert uv.v == UVCoord(g, j);
    UVCoordSpan(g, i);
    UVCoordSpan(g, j);
  }

  /** The texture coordinate of grid index k along either axis. */
  function UVCoord(g: GridSpec, k: int): real
    requires g.subdiv >= 1
  {
    (k as real / g.subdiv as real) * g.uvTiles
  }

  /** One axis of `UVSpan`: 0 at index 0, `uvTiles` at index s, in between otherwise. */
  lemma UVCoordSpan(g: GridSpec, k: int)
    requires g.subdiv >= 1 && 0 <= k <= g.subdiv
    ensures k == 0 ==> UVCoord(g, k) == 0.0
    ensures k == g.subdiv ==> UVCoord(g, k) == g.uvTiles
    ensures g.uvTiles >= 0.0 ==> 0.0 <= UVCoord(g, k) <= g.uvTiles
  {
    var q := k as real / g.subdiv as real;
    assert UVCoord(g, k) == q * g.uvTiles;
    FractionInUnit(k as real, g.subdiv as real, g.uvTiles);
  }

  /** For 0 <= k <= s, (k/s)*t lies between 0 and t when t >= 0. */
  lemma FractionInUnit(k: real, s: real, t: real)
    requires 0.0 < s && 0.0 <= k <= s
    ensures t >= 0.0 ==> 0.0 <= (k / s) * t <= t
    ensures k == s ==> (k / s) * t == t
  {
    var q := k / s;
    assert 0.0 <= q <= 1.0;
    assert t - q * t == (1.0 - q) * t;
  }

  /** Positions lie on the z = 0 plane within [-gridSize/2, gridSize/2] on both
      axes, reaching both ends, and every normal is +z. */
  lemma PositionSpan(g: GridSpec, i: int, j: int)
    requires g.subdiv >= 1 && 0 <= i <= g.subdiv && 0 <= j <= g.subdiv
    ensures var vx := VertexAt(g, i, j);
      && vx.pos.z == 0.0 && vx.normal == Vec3(0.0, 0.0, 1.0)
      && (i == 0 ==> vx.pos.x == -g.gridSize / 2.0) && (i == g.subdiv ==> vx.pos.x == g.gridSize / 2.0)
      && (j == 0 ==> vx.pos.y == -g.gridSize / 2.0) && (j == g.subdiv ==> vx.pos.y == g.gridSize / 2.0)
      && (g.gridSize >= 0.0 ==>
            -g.gridSize / 2.0 <= vx.pos.x <= g.gridSize / 2.0
            && -g.gridSize / 2.0 <= vx.pos.y <= g.gridSize / 2.0)
  {
    var s := g.subdiv as real;
    StepInSpan(i as real, s, g.gridSize);
    StepInSpan(j as real, s, g.gridSize);
    assert VertexAt(g, i, j).pos == Vec3(-(g.gridSize * 0.5) + i as real * (g.gridSize / s),
                                         -(g.gridSize * 0.5) + j as real * (g.gridSize / s), 0.0);
  }

  /** For 0 <= k <= s, -g/2 + k*(g/s) lies in [-g/2, g/2] when g >= 0. */
  lemma StepInSpan(k: real, s: real, size: real)
    requires 0.0 < s && 0.0 <= k <= s
    ensures k == 0.0 ==> -(size * 0.5) + k * (size / s) == -size / 2.0
    ensures k == s ==> -(size * 0.5) + k * (size / s) == size / 2.0
    ensures size >= 0.0 ==> -size / 2.0 <= -(size * 0.5) + k * (size / s) <= size / 2.0
  {
    if size >= 0.0 {
      assert 0.0 <= k * (size / s) <= s * (size / s);
    }
  }

  /** Twice the signed area of a triangle projected on the xy plane; positive
      when its corners run counter-clockwise seen from +z. */
  function Orientation(p: Vec3, q: Vec3, r: Vec3): real
  {
    (q.x - p.x) * (r.y - p.y) - (q.y - p.y) * (r.x - p.x)
  }

  /** The two triangles of a quad share the diagonal i1-i2 and both wind
      counter-clockwise seen from +z (front face up), each covering half the
      quad: twice its signed area is step^2. */
  lemma QuadWinding(g: GridSpec, i: int, j: int)
    requires g.subdiv >= 1 && 0 <= i < g.subdiv && 0 <= j < g.subdiv
    ensures var t1 := QuadFirst(g, i, j);
            var t2 := QuadSecond(g, i, j);
      t1.b == t2.a && t1.c == t2.c
    ensures var step := g.gridSize / g.subdiv as real;
      && Orientation(VertexAt(g, i, j).pos, VertexAt(g, i + 1, j).pos, VertexAt(g, i, j + 1).pos) == step * step
      && Orientation(VertexAt(g, i + 1, j).pos, VertexAt(g, i + 1, j + 1).pos, VertexAt(g, i, j + 1).pos) == step * step
    ensures g.gridSize != 0.0 ==>
      Orientation(VertexAt(g, i, j).pos, VertexAt(g, i + 1, j).pos, VertexAt(g, i, j + 1).pos) > 0.0
  {
    var step := g.gridSize / g.subdiv as real;
    var half := g.gridSize * 0.5;
    assert (i + 1) as real * step == i as real * step + step;
    assert (j + 1) as real * step == j as real * step + step;
    if g.gridSize != 0.0 {
      assert step != 0.0;
      assert step * step > 0.0;
    }
  }
}

=== FILE: results.dfy ===
/** Failure-carrying return values used where p3d_ocean raises an exception
    or takes an optional argument. */
module Results {

  /** An optional value, standing for a Python argument that may be `None`. */
  datatype Option<+T> = None | Some(value: T)

  /** Either a value or the message of the `ValueError` p3d_ocean raises
      (`OceanIFFT2D` for a resolution that is not a power of two,
      `make_ocean_grid` for fewer than one subdivision). */
  datatype Result<+T> = Ok(value: T) | Err(message: string)
}

=== FILE: spectrum_generator.dfy ===
/** The initial-spectrum generator: allocates the single-channel spectrum
    texture and dispatches the spectrum compute shader into it once, either
    into a new texture or in place into a texture the caller already owns. */
module SpectrumGenerator {
  import opened Results
  import opened Gpu

  datatype SpectrumConfig = SpectrumConfig(resolution: int, oceanSize: int, windX: real, windY: real)

  /** One immediate compute dispatch: its grid and the inputs of its shader. */
  datatype Dispatch = Dispatch(groups: Groups, inputs: map<Uniform, Value>)

  datatype Generated = Generated(store: Store, texture: TexId, dispatch: Dispatch)

  /** A new `resolution` x `resolution` single-channel float texture cleared to zero. */
  function CreateTexture(s: Store, resolution: int): (r: Allocated)
    ensures r.store.Extends(s) && !s.Has(r.id)
    ensures r.store.IsSquare(r.id, resolution)
    ensures r.store.Get(r.id).format == R32 && r.store.Get(r.id).content == Cleared
  {
    Allocate(s, Blank("initial_spectrum", resolution, R32))
  }

  /** The dispatch `generate` issues for `config` writing into `target`. */
  predicate DispatchFor(d: Dispatch, config: SpectrumConfig, target: TexId)
  {
    && d.groups == CellGroups(config.resolution)
    && d.inputs.Keys == {UInitialSpectrum, UResolution, UOceanSize, UWind}
    && d.inputs[UInitialSpectrum] == TexV(target)
    && d.inputs[UResolution] == IntV(config.resolution)
    && d.inputs[UOceanSize] == IntV(config.oceanSize)
    && d.inputs[UWind] == Vec2V(config.windX, config.windY)
  }

  /** Fills the spectrum for `config`. Without a target a new texture is
      created and returned; with one, the dispatch writes into that texture and
      returns the very same object, creating nothing. */
  function Generate(s: Store, config: SpectrumConfig, target: Option<TexId>): (r: Generated)
    ensures target.Some? ==> r.texture == target.value && r.store == s
    ensures target.None? ==>
      && r.store.Extends(s) && |r.store.textures| == |s.textures| + 1
      && !s.Has(r.texture) && r.store.IsSquare(r.texture, config.resolution)
      && r.store.Get(r.texture).format == R32 && r.store.Get(r.texture).content == Cleared
    ensures DispatchFor(r.dispatch, config, r.texture)
  {
    var (store, tex) :=
      match target
      case None => var a := CreateTexture(s, config.resolution); (a.store, a.id)
      case Some(t) => (s, t);
    var inputs := map[
      UInitialSpectrum := TexV(tex),
      UResolution := IntV(config.resolution),
      UOceanSize := IntV(config.oceanSize),
      UWind := Vec2V(config.windX, config.windY)];
    Generated(store, tex, Dispatch(CellGroups(config.resolution), inputs))
  }

  /** Regenerating into the same target twice hands back that object both
      times and leaves the store as it was: the texture's identity is stable, so
      every consumer bound to it sees the new contents. */
  lemma GenerateTwiceSameTarget(s: Store, c1: SpectrumConfig, c2: SpectrumConfig, t: TexId)
    ensures var g1 := Generate(s, c1, Some(t));
            var g2 := Generate(g1.store, c2, Some(t));
            g1.texture == t && g2.texture == t && g2.store == s
  {
  }
}

=== FILE: time_spectrum.dfy ===
/** Phase evolution and the time-varying spectrum: two phase textures used as
    ping/pong under a one-bit role flag, a phase pass in bin 0 that reads one
    and writes the other, and a spectrum pass in bin 1 that reads the phase
    just written. */
module TimeSpectrum {
  import opened Gpu

  /** pi; only its positivity matters here. */
  const Pi: real := 3.141592653589793

  const PhaseBin: int := 0
  const SpectrumBin: int := 1

  datatype TimeConfig = TimeConfig(resolution: int, oceanSize: int, choppiness: real)

  datatype OceanTime = OceanTime(
    config: TimeConfig,
    initialSpectrum: TexId,
    phasePing: TexId,
    phasePong: TexId,
    phaseIsPing: bool,
    spectrum: TexId,
    phaseNode: Stage,
    spectrumNode: Stage)

  datatype Built = Built(store: Store, time: OceanTime)

  /** The phase buffer a binding with role flag `isPing` reads ... */
  function SrcFor(t: OceanTime, isPing: bool): TexId
  {
    if isPing then t.phasePing else t.phasePong
  }

  /** ... and the one it writes. */
  function DstFor(t: OceanTime, isPing: bool): TexId
  {
    if isPing then t.phasePong else t.phasePing
  }

  /** Every random draw lies in [0, 1), as `random.random()` promises. */
  predicate UnitDraws(draws: seq<real>)
  {
    forall i :: 0 <= i < |draws| ==> 0.0 <= draws[i] < 1.0
  }

  /** Random initial phases: each draw scaled by 2*pi. */
  function SeedPhases(draws: seq<real>): (phases: seq<real>)
    requires UnitDraws(draws)
    ensures |phases| == |draws|
    ensures forall i :: 0 <= i < |phases| ==> 0.0 <= phases[i] < 2.0 * Pi
  {
    seq(|draws|, i requires 0 <= i < |draws| => draws[i] * (2.0 * Pi))
  }

  /** A single-channel phase texture; only the seeded one gets a RAM image,
      of `resolution`^2 phases in [0, 2*pi). */
  function MakePhaseTexture(s: Store, name: string, resolution: int, seedRandom: bool, draws: seq<real>): (r: Allocated)
    requires seedRandom ==> |draws| == resolution * resolution && UnitDraws(draws)
    ensures r.store.Extends(s) && !s.Has(r.id) && r.store.IsSquare(r.id, resolution)
    ensures r.store.Get(r.id).format == R32
    ensures !seedRandom ==> r.store.Get(r.id).content == Cleared
    ensures seedRandom ==>
      && r.store.Get(r.id).content.RamImage?
      && |r.store.Get(r.id).content.values| == resolution * resolution
      && forall i :: 0 <= i < |r.store.Get(r.id).content.values| ==>
           0.0 <= r.store.Get(r.id).content.values[i] < 2.0 * Pi
  {
    var blank := Blank(name, resolution, R32);
    Allocate(s, if seedRandom then blank.(content := RamImage(SeedPhases(draws))) else blank)
  }

  /** Binds the phase pass to read the source and write the destination picked
      by the role flag, hands it the time step, and points the spectrum pass at
      the destination. The flag is left as it is. */
  function ApplyPhaseBindings(t: OceanTime, deltaTime: real): (r: OceanTime)
    ensures r.phaseNode.Bound(UPhases, TexV(SrcFor(t, t.phaseIsPing)))
    ensures r.phaseNode.Bound(UDeltaPhases, TexV(DstFor(t, t.phaseIsPing)))
    ensures r.phaseNode.Bound(UDeltaTime, RealV(deltaTime))
    ensures r.spectrumNode.Bound(UPhases, TexV(DstFor(t, t.phaseIsPing)))
    ensures t.phasePing != t.phasePong ==> SrcFor(t, t.phaseIsPing) != DstFor(t, t.phaseIsPing)
    ensures r.phaseIsPing == t.phaseIsPing
    ensures forall u :: u !in {UPhases, UDeltaPhases, UDeltaTime} && u in t.phaseNode.inputs ==>
      r.phaseNode.Bound(u, t.phaseNode.inputs[u])
    ensures forall u :: u != UPhases && u in t.spectrumNode.inputs ==>
      r.spectrumNode.Bound(u, t.spectrumNode.inputs[u])
    ensures r.(phaseNode := t.phaseNode, spectrumNode := t.spectrumNode) == t
    ensures r.phaseNode.(inputs := t.phaseNode.inputs) == t.phaseNode
    ensures r.phaseNode.inputs.Keys == t.phaseNode.inputs.Keys + {UPhases, UDeltaPhases, UDeltaTime}
    ensures r.spectrumNode.(inputs := t.spectrumNode.inputs) == t.spectrumNode
    ensures r.spectrumNode.inputs.Keys == t.spectrumNode.inputs.Keys + {UPhases}
  {
    var src := SrcFor(t, t.phaseIsPing);
    var dst := DstFor(t, t.phaseIsPing);
    var phase := t.phaseNode.Bind(UPhases, TexV(src)).Bind(UDeltaPhases, TexV(dst))
                             .Bind(UDeltaTime, RealV(deltaTime));
    t.(phaseNode := phase, spectrumNode := t.spectrumNode.Bind(UPhases, TexV(dst)))
  }

  /** The phase pass reads one of the two phase buffers and writes the other,
      and the spectrum pass reads exactly the buffer the phase pass writes. */
  predicate PhaseRolesWired(t: OceanTime)
  {
    && t.phasePing != t.phasePong
    && UPhases in t.phaseNode.inputs && UDeltaPhases in t.phaseNode.inputs
    && ((t.phaseNode.inputs[UPhases] == TexV(t.phasePing) && t.phaseNode.inputs[UDeltaPhases] == TexV(t.phasePong))
        || (t.phaseNode.inputs[UPhases] == TexV(t.phasePong) && t.phaseNode.inputs[UDeltaPhases] == TexV(t.phasePing)))
    && t.spectrumNode.Bound(UPhases, t.phaseNode.inputs[UDeltaPhases])
  }

  /** The stage's full wiring: phase roles as above, both passes in their bins
      and configured from `config`, the spectrum pass reading the initial
      spectrum and writing the time spectrum. */
  predicate Wired(t: OceanTime)
  {
    && PhaseRolesWired(t)
    && t.phaseNode.bin == PhaseBin && t.spectrumNode.bin == SpectrumBin
    && t.phaseNode.groups == CellGroups(t.config.resolution)
    && t.spectrumNode.groups == CellGroups(t.config.resolution)
    && t.phaseNode.Bound(UResolution, IntV(t.config.resolution))
    && t.phaseNode.Bound(UOceanSize, IntV(t.config.oceanSize))
    && t.spectrumNode.Bound(UResolution, IntV(t.config.resolution))
    && t.spectrumNode.Bound(UOceanSize, IntV(t.config.oceanSize))
    && t.spectrumNode.Bound(UChoppiness, RealV(t.config.choppiness))
    && t.spectrumNode.Bound(UInitialSpectrum, TexV(t.initialSpectrum))
    && t.spectrumNode.Bound(USpectrum, TexV(t.spectrum))
  }

  datatype Buffers = Buffers(store: Store, ping: TexId, pong: TexId, spectrum: TexId)

  /** The three textures of the stage: the seeded phase ping, the unseeded
      phase pong and the RGBA time spectrum, all new and all
      `resolution` x `resolution`. */
  function MakeBuffers(s: Store, resolution: int, draws: seq<real>): (r: Buffers)
    requires |draws| == resolution * resolution && UnitDraws(draws)
    ensures r.store.Extends(s)
    ensures !s.Has(r.ping) && !s.Has(r.pong) && !s.Has(r.spectrum)
    ensures r.ping != r.pong && r.ping != r.spectrum && r.pong != r.spectrum
    ensures r.store.IsSquare(r.ping, resolution) && r.store.IsSquare(r.pong, resolution)
    ensures r.store.IsSquare(r.spectrum, resolution) && r.store.Get(r.spectrum).format == Rgba32
    ensures r.store.Get(r.ping).content.RamImage?
    ensures |r.store.Get(r.ping).content.values| == resolution * resolution
    ensures forall i :: 0 <= i < |r.store.Get(r.ping).content.values| ==>
              0.0 <= r.store.Get(r.ping).content.values[i] < 2.0 * Pi
    ensures r.store.Get(r.pong).content == Cleared
  {
    var ping := MakePhaseTexture(s, "phase_ping", resolution, true, draws);
    var pong := MakePhaseTexture(ping.store, "phase_pong", resolution, false, []);
    var spec := Allocate(pong.store, Blank("time_spectrum", resolution, Rgba32));
    ExtendsTrans(pong.store, ping.store, s);
    ExtendsTrans(spec.store, pong.store, s);
    ExtendsKeeps(pong.store, ping.store, ping.id);
    ExtendsKeeps(spec.store, pong.store, ping.id);
    ExtendsKeeps(spec.store, pong.store, pong.id);
    Buffers(spec.store, ping.id, pong.id, spec.id)
  }

  /** The two passes before any phase binding, both dispatching a per-cell grid. */
  function MakeStage(b: Buffers, initialSpectrum: TexId, config: TimeConfig): (t: OceanTime)
    ensures t.phasePing == b.ping && t.phasePong == b.pong && t.spectrum == b.spectrum
    ensures t.config == config && t.initialSpectrum == initialSpectrum && t.phaseIsPing
    ensures b.ping != b.pong ==> Wired(ApplyPhaseBindings(t, 0.0))
  {
    var groups := CellGroups(config.resolution);
    var phaseNode := Stage("ocean_phase", PhaseBin, groups, map[
      UResolution := IntV(config.resolution),
      UOceanSize := IntV(config.oceanSize)]);
    var spectrumNode := Stage("ocean_spectrum", SpectrumBin, groups, map[
      UResolution := IntV(config.resolution),
      UOceanSize := IntV(config.oceanSize),
      UChoppiness := RealV(config.choppiness),
      UInitialSpectrum := TexV(initialSpectrum),
      USpectrum := TexV(b.spectrum)]);
    OceanTime(config, initialSpectrum, b.ping, b.pong, true, b.spectrum, phaseNode, spectrumNode)
  }

  /** Builds the stage: seeded ping, unseeded pong, the RGBA time-spectrum
      texture, both passes, the flag set to ping, and an initial binding with a
      zero time step (without flipping the flag). */
  function New(s: Store, initialSpectrum: TexId, config: TimeConfig, draws: seq<real>): (r: Built)
    requires |draws| == config.resolution * config.resolution && UnitDraws(draws)
    ensures r.store.Extends(s)
    ensures var t := r.time;
      && !s.Has(t.phasePing) && !s.Has(t.phasePong) && !s.Has(t.spectrum)
      && t.phasePing != t.phasePong && t.phasePing != t.spectrum && t.phasePong != t.spectrum
      && r.store.IsSquare(t.phasePing, config.resolution)
      && r.store.IsSquare(t.phasePong, config.resolution)
      && r.store.IsSquare(t.spectrum, config.resolution)
      && r.store.Get(t.spectrum).format == Rgba32
      && r.store.Get(t.phasePing).content.RamImage?
      && |r.store.Get(t.phasePing).content.values| == config.resolution * config.resolution
      && (forall i :: 0 <= i < |r.store.Get(t.phasePing).content.values| ==>
            0.0 <= r.store.Get(t.phasePing).content.values[i] < 2.0 * Pi)
      && r.store.Get(t.phasePong).content == Cleared
    ensures r.time.config == config && r.time.initialSpectrum == initialSpectrum
    ensures r.time.phaseIsPing
    ensures r.time.phaseNode.Bound(UPhases, TexV(r.time.phasePing))
    ensures r.time.phaseNode.Bound(UDeltaPhases, TexV(r.time.phasePong))
    ensures r.time.phaseNode.Bound(UDeltaTime, RealV(0.0))
    ensures Wired(r.time)
  {
    var b := MakeBuffers(s, config.resolution, draws);
    Built(b.store, ApplyPhaseBindings(MakeStage(b, initialSpectrum, config), 0.0))
  }

  /** Once per frame: bind with the current flag, then negate the flag. */
  function Step(t: OceanTime, deltaTime: real): (r: OceanTime)
    ensures r.phaseIsPing == !t.phaseIsPing
    ensures r.phaseNode.Bound(UPhases, TexV(SrcFor(t, t.phaseIsPing)))
    ensures r.phaseNode.Bound(UDeltaPhases, TexV(DstFor(t, t.phaseIsPing)))
    ensures r.spectrumNode.Bound(UPhases, TexV(DstFor(t, t.phaseIsPing)))
    ensures r.phaseNode.Bound(UDeltaTime, RealV(deltaTime))
    ensures forall u :: u !in {UPhases, UDeltaPhases, UDeltaTime} && u in t.phaseNode.inputs ==>
      r.phaseNode.Bound(u, t.phaseNode.inputs[u])
    ensures forall u :: u != UPhases && u in t.spectrumNode.inputs ==>
      r.spectrumNode.Bound(u, t.spectrumNode.inputs[u])
    ensures r.(phaseIsPing := t.phaseIsPing, phaseNode := t.phaseNode, spectrumNode := t.spectrumNode) == t
    ensures r.phaseNode.(inputs := t.phaseNode.inputs) == t.phaseNode
    ensures r.phaseNode.inputs.Keys == t.phaseNode.inputs.Keys + {UPhases, UDeltaPhases, UDeltaTime}
    ensures r.spectrumNode.(inputs := t.spectrumNode.inputs) == t.spectrumNode
    ensures r.spectrumNode.inputs.Keys == t.spectrumNode.inputs.Keys + {UPhases}
  {
    var bound := ApplyPhaseBindings(t, deltaTime);
    bound.(phaseIsPing := !bound.phaseIsPing)
  }

  /** The phase texture shown by the debug view: one of the two phase buffers,
      namely the one a binding under the opposite flag writes, which is the
      destination of the step that produced the current flag. */
  function DebugCurrentPhaseTexture(t: OceanTime): (r: TexId)
    ensures r == t.phasePing || r == t.phasePong
    ensures r == DstFor(t, !t.phaseIsPing)
    ensures t.phasePing != t.phasePong ==> r != SrcFor(t, !t.phaseIsPing)
  {
    if t.phaseIsPing then t.phasePing else t.phasePong
  }

  /** A step keeps the stage wired: the buffers it binds are distinct, and the
      spectrum pass reads the buffer the phase pass writes. */
  lemma StepPreservesWired(t: OceanTime, deltaTime: real)
    requires Wired(t)
    ensures Wired(Step(t, deltaTime))
  {
  }

  /** After a step, the debug view shows the buffer that step's phase pass
      writes, which is also the one the spectrum pass reads. */
  lemma DebugShowsLastWritten(t: OceanTime, deltaTime: real)
    ensures var r := Step(t, deltaTime);
      && r.phaseNode.Bound(UDeltaPhases, TexV(DebugCurrentPhaseTexture(r)))
      && r.spectrumNode.Bound(UPhases, TexV(DebugCurrentPhaseTexture(r)))
  {
  }

  /** Two consecutive steps swap the roles of the two phase buffers, and
      restore the flag. */
  lemma TwoStepsSwapRoles(t: OceanTime, dt1: real, dt2: real)
    ensures var r1 := Step(t, dt1);
            var r2 := Step(r1, dt2);
      && r2.phaseIsPing == t.phaseIsPing
      && r2.phaseNode.inputs[UPhases] == r1.phaseNode.inputs[UDeltaPhases]
      && r2.phaseNode.inputs[UDeltaPhases] == r1.phaseNode.inputs[UPhases]
  {
  }

  /** The constructor binds with the flag set and does not flip it, so the first
      step binds the very same source and destination (ping -> pong). */
  lemma FirstStepRepeatsInitialBinding(s: Store, initialSpectrum: TexId, config: TimeConfig, draws: seq<real>, deltaTime: real)
    requires |draws| == config.resolution * config.resolution && UnitDraws(draws)
    ensures var t := New(s, initialSpectrum, config, draws).time;
            var r := Step(t, deltaTime);
      && r.phaseNode.inputs[UPhases] == t.phaseNode.inputs[UPhases] == TexV(t.phasePing)
      && r.phaseNode.inputs[UDeltaPhases] == t.phaseNode.inputs[UDeltaPhases] == TexV(t.phasePong)
      && r.spectrumNode.inputs[UPhases] == t.spectrumNode.inputs[UPhases]
  {
  }
}
